=== FILE: README.md ===
# Course platform backend: credential authority, stores and upload rules in Dafny

This project models the logic of a NestJS/MongoDB backend for an online-course
platform:

- user registration and login: unique emails, a salted password hash, a role
  enumeration with a default, and one error for every bad credential;
- the video and category stores: keyed collections with partial updates and
  "not found" contracts;
- the paginated video listing;
- the object-storage key and URL builders of the avatar and video uploads;
- the size and type checks in front of the course-thumbnail route.

Every service call is a pure function. It takes the collection(s) it touches
and returns the new collection(s) with the reply. Exceptions become `Err`
values tagged with the exception kind and its message (`Results`). A
collection is a sequence of documents in natural order, each under an id the
store assigns (`Documents`). `findOne(filter)` is the first match in that
order. Three things are nondeterministic or come from the network: the salt
bcrypt draws, the UUID a key is built from, and whether the storage service
accepts a put. All three are explicit inputs.

Modules, one per source file or collaborator:

| module | file | models |
|---|---|---|
| `Results` | results.dfy | exception kinds and messages |
| `Text` | text.dfy | `split`/`join`/`split(sep).pop()`, prefix and suffix tests |
| `Documents` | documents.dfy | the ODM calls the services make on one collection |
| `Passwords` | passwords.dfy | `bcrypt.hash(p, 10)` / `bcrypt.compare` |
| `UserSchema` | user_schema.dfy | src/auth/schemas/user.schema.ts |
| `Tokens` | tokens.dfy | the signed session payload and its 1-hour lifetime |
| `AuthService` | auth_service.dfy | src/auth/auth.service.ts |
| `ObjectStorage` | object_storage.dfy | the S3 client, its constructor check, object URLs, the bucket |
| `AvatarUpload` | avatar_upload.dfy | src/auth/upload-user-avatar.service.ts |
| `VideoUpload` | video_upload.dfy | src/videos/upload.service.ts |
| `VideosService` | videos_service.dfy | src/videos/videos.service.ts |
| `VideosController` | videos_controller.dfy | `create` and `findPaginated` of src/videos/videos.controller.ts |
| `VideoRoutes` | video_routes.dfy | the order of the routes in src/videos/videos.controller.ts and which handler a request reaches |
| `CategoriesService` | categories_service.dfy | src/categories/categories.service.ts |
| `ThumbnailValidation` | courses_controller.dfy | the file checks of `uploadThumbnail` in src/courses/courses.controller.ts |

Three behaviours are modelled as the code has them, not as a reader might expect:

- The login token's payload is `{name, email, role, sub}`, with no `avatarUrl`.
- The avatar upload does not reject an empty file.
- The user-not-found case of the avatar upload reaches the caller as the same
  generic error as a failed put, not as "not found".

## Model

| member | source | states |
|---|---|---|
| Text.Split | src/auth/upload-user-avatar.service.ts:33 | `split('.')` always gives at least one piece. No piece holds the separator. Joining the pieces with the separator gives back the input. |
| Text.SplitJoin | src/auth/upload-user-avatar.service.ts:33 | Split and join are inverse: cutting any separator-free pieces' join gives back exactly those pieces, so `Split` is the only such cut. |
| Text.AfterLast | src/auth/upload-user-avatar.service.ts:33 | `split('.').pop()` is the suffix after the last `.`. It holds no `.`, and the character before it is a `.`. With no `.` in the name, it is the whole name. |
| Text.AfterLastOfJoined | src/auth/upload-user-avatar.service.ts:33-34 | Whatever precedes the last `.`, the text after it is what `pop()` returns. |
| Documents.FirstMatch | src/auth/auth.service.ts:17 | `findOne(filter)` returns the first document in natural order that satisfies the filter. No earlier document does. It returns null only when no document does. |
| Documents.Insert | src/videos/videos.service.ts:11-14 | Saving a new document stores it under an id no document had. Every other id finds what it found before, and unique ids stay unique. |
| Documents.UpdateById | src/categories/categories.service.ts:29 | `findByIdAndUpdate(id, change, {new: true})` returns the changed document, or null with nothing changed. Every other id is untouched. |
| Documents.DeleteById | src/categories/categories.service.ts:35 | `findByIdAndDelete` returns the removed document, or null with nothing changed. Other ids are untouched. With unique ids, the removed id is gone afterwards. |
| Passwords.CompareHash | src/auth/auth.service.ts:23 | `bcrypt.compare(p, bcrypt.hash(p, salt))` holds for every salt. |
| Passwords.Significant | src/auth/auth.service.ts:23 | The part of a password that enters its digest is at most its first 72 characters, and the whole password when it is no longer. |
| Passwords.Image | src/auth/auth.service.ts:23 | What a digest records is the bcrypt key stream: 72 characters that start with the password, followed by a NUL where a shorter password ends. |
| Passwords.StreamDeterminesSignificant | src/auth/auth.service.ts:46 | For passwords without NUL characters, equal key streams mean equal first 72 characters. |
| Passwords.CompareRejectsOthers | src/auth/auth.service.ts:46 | For passwords without NUL characters, a digest rejects every password whose first 72 characters differ from those of the password it was made from. |
| Passwords.NulCollision | src/auth/auth.service.ts:46 | Because of the NUL terminator and the cyclic read, `"a\0a"` passes a digest of `"a"`. |
| Passwords.CompareIgnoresTail | src/auth/auth.service.ts:46 | Two passwords that agree on their first 72 characters each pass the other's digest. |
| UserSchema.ParseRole | src/auth/schemas/user.schema.ts:17-22 | The role field accepts exactly `admin`, `professor` and `aluno`, each as its own role. |
| UserSchema.ParseRoleName | src/auth/schemas/user.schema.ts:19 | Every role's spelling parses back to that role. |
| UserSchema.NewUser | src/auth/schemas/user.schema.ts:8-24 | A user saves iff name and email are non-empty and the role is absent or in the enumeration. An absent role becomes `aluno`. The avatar starts as `""`. Any other input is a validation error. |
| UserSchema.FindByEmailUnique | src/auth/schemas/user.schema.ts:11 | Under the unique email index, `findOne({email})` finds the one user with that email. |
| AuthService.Register | src/auth/auth.service.ts:15-41 | A taken email gives Conflict "Email já está em uso" and leaves the store unchanged. Otherwise, for valid input, exactly one user is appended. Its digest accepts the password, and its role and avatar follow the schema defaults. The reply is that user without the password. |
| AuthService.Login | src/auth/auth.service.ts:43-64 | Login succeeds iff a user has the email and the password matches. Every failure is Unauthorized "Credenciais inválidas". The payload is `{name, email, role, sub = id}` of that user. The returned user has no password. The store is not an output. |
| AuthService.LoginFailuresIndistinguishable | src/auth/auth.service.ts:44-48 | An unknown email and a wrong password for a known email produce the identical error. |
| AuthService.LoginSucceedsIffPasswordMatches | src/auth/auth.service.ts:44-46 | With unique emails, logging in with a stored email succeeds exactly when the password matches that user's digest. |
| AuthService.RegisterTwiceConflicts | src/auth/auth.service.ts:17-20 | After a successful registration, registering the same email again fails with Conflict and changes nothing. |
| AuthService.RegisterThenLogin | src/auth/auth.service.ts:23-46 | After a successful `register(n, e, p, r)`, `login(e, p)` succeeds and returns the registered user. |
| AuthService.LoginAsWritten | src/auth/auth.service.ts:43-48 | For a password that is not a string, an unknown email gives the credentials error. A known email gives the "Illegal arguments" failure that `bcrypt.compare` throws. A string password behaves as `Login`. |
| AuthService.AsWrittenRevealsEmail | src/auth/auth.service.ts:44-46 | As written, a body without a string password gets different replies for a registered and an unknown email. |
| AuthService.LoginChecked | src/auth/auth.service.ts:43-48 | With a type check, a password that is not a string is refused with the credentials error. Every failure is that one error, and a string password behaves as `Login`. |
| AuthService.CheckedFailuresIndistinguishable | src/auth/auth.service.ts:44-48 | With the type check, an unknown email and any bad password for a known email, string or not, give the identical error. |
| AuthService.LoginIgnoresPasswordTail | src/auth/auth.service.ts:43-46 | If a password of 72 or more characters logs a user in, so does any password that agrees with it on the first 72, with the identical reply. |
| AuthService.RegisterPreservesValidUsers | src/auth/schemas/user.schema.ts:8-24 | Registration keeps ids unique, emails unique and required fields non-empty. |
| ObjectStorage.Connect | src/videos/upload.service.ts:16-18 | Construction fails with "Missing AWS environment variables" iff a region, key id, secret or bucket is unset or empty. The avatar service runs the same check (src/auth/upload-user-avatar.service.ts:19-21). |
| ObjectStorage.ObjectUrl | src/videos/upload.service.ts:44 | The public URL is `https://<bucket>.s3.<region>.amazonaws.com/<key>`. It starts with `https://` and ends with the key. |
| ObjectStorage.UrlRoundTrip | src/auth/upload-user-avatar.service.ts:46 | The key can be read back out of the URL, so distinct keys give distinct URLs. |
| AvatarUpload.Extension | src/auth/upload-user-avatar.service.ts:33 | The extension is the part of the file name after its last `.`, or the whole name when it has no `.`. |
| AvatarUpload.AvatarKeyShape | src/auth/upload-user-avatar.service.ts:34 | The key starts with `users/avatars/<uuid>.`, and its extension is the original name's extension. |
| AvatarUpload.UploadAvatar | src/auth/upload-user-avatar.service.ts:32-63 | It succeeds iff the put is accepted and the user exists. On success it returns the object's URL and changes only that user's `avatarUrl`, to that URL. Every failure is the one generic error and leaves the users unchanged. An accepted put stays in the bucket, holding the file's bytes and content type. No other key of the bucket changes. |
| AvatarUpload.MissingUserKeepsObject | src/auth/upload-user-avatar.service.ts:44-61 | For a missing user the object is still uploaded. The caller sees exactly the error a refused put gives. |
| AvatarUpload.UploadAvatarPreservesValidUsers | src/auth/upload-user-avatar.service.ts:48-52 | Setting an avatar keeps ids unique, emails unique and required fields present. |
| VideoUpload.FileKeyShape | src/videos/upload.service.ts:30 | The key is the UUID, a `-`, then the original name. It ends with that name, and the name can be read back from it. |
| VideoUpload.UploadFile | src/videos/upload.service.ts:29-49 | A URL is returned iff the put was accepted, and it names the key holding the file's bytes. A refused put gives "Failed to upload file to S3" and an unchanged bucket. An accepted put stores the file's bytes and content type and changes no other key. |
| VideoUpload.UploadedUrlEndsWithName | src/videos/upload.service.ts:30-44 | A successful upload's URL ends with the original file name. |
| VideosService.Create | src/videos/videos.service.ts:11-14 | A video saves iff title, description and fileUrl are present and non-empty. It is then appended under a fresh id. Otherwise the result is a validation error with the store unchanged. |
| VideosService.FindOne | src/videos/videos.service.ts:20-22 | An absent id gives null, not an error. A present id gives its video. |
| VideosService.MergeIdentityAndIdempotent | src/videos/videos.service.ts:25 | An empty patch changes nothing, and applying a patch twice equals applying it once. |
| VideosService.Update | src/videos/videos.service.ts:24-26 | A present id gets the merged video, which is also returned. An absent id gives null with nothing changed. Other videos are untouched. |
| VideosService.Remove | src/videos/videos.service.ts:28-30 | It returns the removed video or null. Only that id is affected, and with unique ids it is gone afterwards. |
| VideosService.FindPaginated | src/videos/videos.service.ts:32-38 | For `page, limit >= 1` the result has at most `limit` documents. Its i-th document is `all[(page-1)*limit + i]`. Its length is the smaller of `limit` and the number of documents from the start on, or 0 once the start is past the end. |
| VideosService.FirstPagesArePrefix | src/videos/videos.service.ts:35-36 | Pages 1..k laid end to end are exactly the first `k*limit` documents, or all of them when there are fewer. |
| VideosService.PagesDoNotOverlap | src/videos/videos.service.ts:35-36 | An earlier page ends at or before the position where a later page starts. |
| VideosService.DocumentOnItsPage | src/videos/videos.service.ts:35-36 | Document n is on page `n / limit + 1` at offset `n % limit`. |
| VideosController.Create | src/videos/videos.controller.ts:22-42 | No file gives "No file uploaded" and changes nothing. A refused put gives the upload error and stores no video. On success the video's title and description come from the body, its `fileUrl` names the uploaded key, and exactly one video is appended. An accepted put stores the file's bytes and content type under the key. No other key of the bucket changes. |
| VideosController.UploadedUrlWins | src/videos/videos.controller.ts:36-39 | Whatever `fileUrl` the body carries, the outcome is the same: the upload's URL wins. |
| VideosController.InvalidBodyLeavesUpload | src/videos/videos.controller.ts:33-36 | A body without a title fails validation after the upload. The file stays in the bucket and no video is stored. |
| VideosController.FindPaginatedRoute | src/videos/videos.controller.ts:71-74 | With the query's page and limit, or 1 and 10 when absent, the listing is the window of the collection from `(page-1)*limit` on: element by element, of length the smaller of `limit` and what remains, and empty past the end. |
| VideosController.DefaultListingIsFirstTen | src/videos/videos.controller.ts:72-73 | Without query parameters (page 1, limit 10) the listing is the first ten videos. |
| CategoriesService.Create | src/categories/categories.service.ts:14-16 | It adds one category carrying exactly the dto's fields, under a fresh id. Other categories are untouched. |
| CategoriesService.FindAll | src/categories/categories.service.ts:18-20 | It returns every category document, id and fields, in natural order. |
| CategoriesService.FindAllAgreesWithFindOne | src/categories/categories.service.ts:18-26 | With unique ids, an id is listed exactly when `findOne` finds it, and `findOne` returns the listed fields for every listed id. |
| CategoriesService.FindOne | src/categories/categories.service.ts:22-26 | An absent id gives NotFound "Categoria não encontrada". A present id gives its category. |
| CategoriesService.Merge | src/categories/categories.service.ts:29 | The dto's fields replace or add to the stored ones. Fields the dto lacks keep their values. |
| CategoriesService.Update | src/categories/categories.service.ts:28-32 | An absent id gives NotFound with the store unchanged. A present id gets the merged category, which is also returned. Other categories are untouched. |
| CategoriesService.Remove | src/categories/categories.service.ts:34-37 | An absent id gives NotFound with the store unchanged. Otherwise the id is gone (with unique ids) and the others are untouched. |
| CategoriesService.RemovedIsGone | src/categories/categories.service.ts:22-37 | After a removal, finding, updating or removing that id fails with NotFound. |
| CategoriesService.CreateThenFind | src/categories/categories.service.ts:14-25 | A created category is found under its new id. An empty update returns it unchanged. |
| ThumbnailValidation.SearchPattern | src/courses/courses.controller.ts:45 | The search the regex engine runs for the end-anchored alternation of `jpg`, `jpeg`, `png` and `webp` finds a match iff some alternative runs from some position to the end of the type. |
| ThumbnailValidation.TypeOkIffPatternMatches | src/courses/courses.controller.ts:45 | The pattern matches exactly the types ending in `jpg`, `jpeg`, `png` or `webp`. |
| ThumbnailValidation.ThumbnailRoute | src/courses/courses.controller.ts:37-52 | The handler is invoked iff the size check passes and the tested type string exists and matches the pattern. With the declared type under test that string is the upload's MIME type. An undetectable type, or a file over 5\*1024\*1024 bytes, is always refused. A smaller file whose tested type ends in an image suffix is always accepted. |
| VideoRoutes.FirstRoute | src/videos/videos.controller.ts:13-74 | A request goes to the first declared route whose verb and path match it. No earlier route matches, and there is none only when no route matches. |
| VideoRoutes.PaginatedGoesToFindOne | src/videos/videos.controller.ts:49-52 | As declared, `GET /videos/paginated` reaches `findOne`, with "paginated" as the id. |
| VideoRoutes.PaginatedUnreachable | src/videos/videos.controller.ts:49-74 | As declared, no request of any verb or path reaches `findPaginated`. |
| VideoRoutes.DropNonMatching | src/videos/videos.controller.ts:13-74 | Taking out a route that does not match a request leaves that request's handler unchanged. |
| VideoRoutes.SameOrderElsewhere | src/videos/videos.controller.ts:13-74 | Two tables that differ only in where one route sits send every request that route does not match to the same handler. |
| VideoRoutes.IntendedReachesPaginated | src/videos/videos.controller.ts:71-74 | With the literal route declared before `:id`, `GET /videos/paginated` reaches `findPaginated`. |
| VideoRoutes.IntendedChangesNothingElse | src/videos/videos.controller.ts:44-74 | That reordering changes the handler of no other request. |
| ThumbnailValidation.PatternExamples | src/courses/courses.controller.ts:45 | The match is case-sensitive and unanchored: `image/png` passes, `image/PNG` and `image/gif` fail, and any type ending in `png` passes. |

## Left out

- Password hashing: bcrypt's one-wayness, its key schedule and the randomness of its salt are not modelled. `Passwords.Hash` is a stand-in whose digest holds the cost, the salt and the bcrypt key stream of the password. `Compare` ignores the cost and the salt stored in the digest, because the key stream depends on neither.
- Passwords.CompareRejectsOthers: stated only for passwords without NUL characters. With NUL characters, distinct passwords can share a key stream (`Passwords.NulCollision`), and the library accepts them too.
- AuthService.Login: takes its email and password as strings. The login route runs no validation pipe (src/auth/auth.controller.ts:29), so the body can carry other values. For the password this is modelled separately, by `AuthService.LoginAsWritten`, and reported under "## Findings". A non-string email, and non-string arguments to `register` (where `bcrypt.hash` throws, src/auth/auth.service.ts:23), are not modelled.
- Passwords.Significant: counts 72 characters, and `Passwords.Image` reads characters, while bcryptjs counts and reads 72 bytes of the password's UTF-8 encoding. The two agree on ASCII passwords. A password with multi-byte characters is cut earlier by the library than by the model.
- Token signing and verification (the JWT library, the signing secret at src/auth/auth.module.ts:13, the bearer guard): these live in foreign libraries. A token is its payload plus its lifetime.
- UserSchema.NewUser: a failed validation is reported under one message. The ODM's per-field message text is not modelled.
- ThumbnailValidation.ThumbnailRoute: a refused file is reported under one message. The framework's exact wording is not modelled, and neither is the error for a missing file.
- The exact size boundary of the framework's size validator is a parameter (`SizeRule`), not a fixed choice.
- ThumbnailValidation.ThumbnailRoute: which string the type validator tests depends on the framework version, and the package manifest is not part of this model. Older versions test the MIME type the client declared. Newer versions by default test the type detected from the file's leading bytes. That choice is the `TypeSource` parameter. Detection itself is not modelled: the detected type is an input.
- `findAllUsers` and `findUserById` are called from src/auth/auth.controller.ts:40,46 but are not defined in src/auth/auth.service.ts, so they are not part of this model.
- Pagination with `page < 1` or `limit < 1` is not modelled: `limit(0)` means "no limit" and a negative skip is a database error. `FindPaginated` requires both to be at least 1. Turning non-numeric query strings into numbers (`Number(...)`, NaN) is also not modelled.
- VideoRoutes.Matches: literal path segments are compared exactly, while the framework compares them case-insensitively by default. Query strings, trailing slashes and the global path prefix are not modelled. None of this changes which of the video routes a lower-case `GET /videos/paginated` reaches.
- Concurrency: the check-then-write race on a registration email. The model is one sequential store, in which the unique index never fires.
- Timestamps (`createdAt`/`updatedAt`), ObjectId format and casting, `populate`, and unknown body fields dropped by the ODM's strict mode are not modelled.
- The category schema is not part of this model. A category is a map of named string fields, and creating one always succeeds (see the `CategoriesService.Create` line for bodies with `_id`).
- The video update and the category update do not run schema validators, so a patch may store an empty string. The model keeps that behaviour rather than adding a check.
- CategoriesService.Create: a create body that carries a well-formed `_id` is stored by the ODM under that id (src/categories/categories.service.ts:15), and a second create with the same id fails with a duplicate-key error. The model always assigns a fresh id, and an `_id` field in the dto stays an ordinary field. So "creating a category always succeeds" holds only for bodies without `_id`.
- VideosService.Create and VideosController.Create: the same holds for an `_id` in the video body, which reaches the ODM through the spread at src/videos/videos.controller.ts:36-39. The model assigns a fresh id.
- VideosService.Update: no validation pipe runs, so a patch can set a field to `null` (or to a non-string value), and `findByIdAndUpdate` stores it in a required field with update validators off (src/videos/videos.service.ts:25). `VideoFields` holds strings or absence only, so such patches are not modelled. The category update has the same gap, since a category is a map of strings.
- AvatarUpload.UploadAvatar: takes a file. The file's name is read at src/auth/upload-user-avatar.service.ts:33-34, before the `try` at :43, so a call without a file would throw a TypeError instead of the generic error. Its caller is not part of this model, so a missing file is not modelled.
- Logging (`console.error`), the mail module, the NestJS module wiring, the pass-through course, module and lesson services, and DTO decorators (no validation pipe is installed) are not modelled.
- `findAll` of the video service is not modelled separately. Like `CategoriesService.FindAll`, it returns the whole collection, ids included.
- The `uploadVideo` route (src/videos/videos.controller.ts:64-69) is not modelled separately: it is `VideoUpload.UploadFile` with no check that a file is present.

## Findings

| source | as written | input that shows it | evidently intended | confidence | as-written member | corrected member |
|---|---|---|---|---|---|---|
| src/videos/videos.controller.ts:49-74 | `@Get(':id')` is declared before `@Get('paginated')`, so the parameter route takes every one-segment GET path | `GET /videos/paginated?page=2` is handled by `findOne("paginated")`, not by the paginated listing | declare the `paginated` route before `:id`, so that the listing is reachable | high, not executed | VideoRoutes.PaginatedUnreachable | VideoRoutes.IntendedReachesPaginated |
| src/auth/auth.service.ts:44-47 | the lookup runs before the password is checked, and `bcrypt.compare` throws for a password that is not a string | a login body with no `password` field: a registered email gets an internal error, an unknown email gets 401 "Credenciais inválidas", so the reply reveals whether the email is registered | every failed login gets the one credentials error, as line 47 does for a wrong string password | high, not executed | AuthService.AsWrittenRevealsEmail | AuthService.CheckedFailuresIndistinguishable |

=== FILE: auth_service.dfy ===
/** The credential authority: `register` and `login` over the user
    collection. The password hash and the token signer are the models of
    `Passwords` and `Tokens`; the salt the hash draws is an input.
 */
module AuthService {
  import opened Results
  import opened Documents
  import opened UserSchema
  import opened Tokens
  import Passwords

  datatype RegisterReply = RegisterReply(message: string, user: PublicUser)

  /** The user collection after a registration, and its reply. */
  datatype Registration = Registration(users: Collection<User>, reply: Result<RegisterReply>)

  datatype LoginReply = LoginReply(accessToken: AccessToken, user: PublicUser)

  /** Some stored user already has `email`. */
  predicate EmailTaken(users: Collection<User>, email: string) {
    exists j :: 0 <= j < |users| && users[j].body.email == email
  }

  /** `register(name, email, password, role)`: refuses an email already in
      use, otherwise hashes the password, stores the new user and returns it
      without its password. */
  function Register(
    users: Collection<User>, name: string, email: string, password: string,
    role: Option<string>, salt: Passwords.Salt): (r: Registration)
    ensures EmailTaken(users, email) ==> r == Registration(users, Err(Conflict(EmailInUse)))
    ensures r.reply.Err? ==> r.users == users
    ensures r.reply.Ok? <==> !EmailTaken(users, email) && name != "" && email != ""
                             && (role.None? || ParseRole(role.value).Some?)
    ensures r.reply.Ok? ==>
      && |r.users| == |users| + 1
      && r.users[..|users|] == users
      && var d := r.users[|users|];
      && r.reply.value.message == Registered
      && r.reply.value.user == WithoutPassword(d)
      && d.body.name == name && d.body.email == email
      && Passwords.Compare(password, d.body.password)
      && RoleName(d.body.role) == role.GetOr(RoleName(DefaultRole))
      && d.body.avatarUrl == DefaultAvatarUrl
  {
    if FindByEmail(users, email).Some? then
      Registration(users, Err(Conflict(EmailInUse)))
    else
      var hashed := Passwords.Hash(password, salt);
      Passwords.CompareHash(password, salt);
      match NewUser(name, email, hashed, role)
      case Err(e) => Registration(users, Err(e))
      case Ok(u) =>
        var (users', id) := Insert(users, u);
        Registration(users', Ok(RegisterReply(Registered, WithoutPassword(Doc(id, u)))))
  }

  /** `login(email, password)`: finds the user by email, checks the
      password, and issues a session token. A missing user and a wrong
      password are reported by one and the same error. */
  function Login(users: Collection<User>, email: string, password: string): (r: Result<LoginReply>)
    ensures r.Err? ==> r.error == Unauthorized(InvalidCredentials)
    ensures r.Ok? <==> FindByEmail(users, email).Some?
                       && Passwords.Compare(password, FindByEmail(users, email).value.body.password)
    ensures r.Ok? ==>
      var d := FindByEmail(users, email).value;
      && r.value.user == WithoutPassword(d)
      && r.value.accessToken.payload == Payload(d.body.name, d.body.email, d.body.role, d.id)
      && r.value.accessToken.expiresInSeconds == SessionLifetimeSeconds
  {
    match FindByEmail(users, email)
    case None => Err(Unauthorized(InvalidCredentials))
    case Some(d) =>
      if !Passwords.Compare(password, d.body.password) then
        Err(Unauthorized(InvalidCredentials))
      else
        var payload := Payload(d.body.name, d.body.email, d.body.role, d.id);
        Ok(LoginReply(Sign(payload), WithoutPassword(d)))
  }

  /** An unknown email and a wrong password for a known one fail with the
      identical error, so a caller cannot tell which half was wrong. */
  lemma LoginFailuresIndistinguishable(
    users: Collection<User>, unknown: string, anyPassword: string, j: nat, wrong: string)
    requires !EmailTaken(users, unknown)
    requires UniqueEmails(users)
    requires j < |users|
    requires !Passwords.Compare(wrong, users[j].body.password)
    ensures Login(users, unknown, anyPassword).Err?
    ensures Login(users, unknown, anyPassword) == Login(users, users[j].body.email, wrong)
  {
    FindByEmailUnique(users, j);
  }

  /** Registering an email that is already in use fails with a conflict
      and leaves the collection as it was. */
  lemma RegisterTwiceConflicts(
    users: Collection<User>, name: string, email: string, password: string,
    role: Option<string>, salt: Passwords.Salt,
    name2: string, password2: string, role2: Option<string>, salt2: Passwords.Salt)
    requires Register(users, name, email, password, role, salt).reply.Ok?
    ensures
      var users' := Register(users, name, email, password, role, salt).users;
      Register(users', name2, email, password2, role2, salt2) == Registration(users', Err(Conflict(EmailInUse)))
  {
    var users' := Register(users, name, email, password, role, salt).users;
    assert users'[|users|].body.email == email;
  }

  /** A user who has just registered can log in with the same email and
      password, and is handed back the registered user. */
  lemma RegisterThenLogin(
    users: Collection<User>, name: string, email: string, password: string,
    role: Option<string>, salt: Passwords.Salt)
    requires Register(users, name, email, password, role, salt).reply.Ok?
    ensures
      var r := Register(users, name, email, password, role, salt);
      var l := Login(r.users, email, password);
      l.Ok? && l.value.user == r.reply.value.user
  {
    var r := Register(users, name, email, password, role, salt);
    var users' := r.users;
    var d := users'[|users|];
    assert forall j :: 0 <= j < |users| ==> users'[j] == users[j];
    FirstMatchIs(users', HasEmail(email), Some(|users|));
  }

  /** Registration keeps ids unique, emails unique and required fields
      present. */
  lemma RegisterPreservesValidUsers(
    users: Collection<User>, name: string, email: string, password: string,
    role: Option<string>, salt: Passwords.Salt)
    requires ValidUsers(users)
    ensures ValidUsers(Register(users, name, email, password, role, salt).users)
  {
    var r := Register(users, name, email, password, role, salt);
    if r.reply.Ok? {
      var n := |users|;
      var users' := r.users;
      var d := users'[n];
      assert users' == users + [d];
      assert !EmailTaken(users, email) && d.body.email == email;
      assert WellFormed(d.body);
      assert UniqueIds(users') by {
        var (c, id) := Insert(users, d.body);
        assert c == users + [Doc(id, d.body)];
      }
    }
  }

  /** With unique emails, a login succeeds exactly when the password matches
      the stored digest of the user owning that email. */
  lemma LoginSucceedsIffPasswordMatches(users: Collection<User>, j: nat, password: string)
    requires UniqueEmails(users)
    requires j < |users|
    ensures Login(users, users[j].body.email, password).Ok?
            <==> Passwords.Compare(password, users[j].body.password)
  {
    FindByEmailUnique(users, j);
  }

  /** Only the first `SignificantLength` characters of a password count:
      whoever can log in with one password can log in with any password
      that agrees with it that far. */
  lemma LoginIgnoresPasswordTail(users: Collection<User>, email: string, password: string, other: string)
    requires Login(users, email, password).Ok?
    requires |password| >= Passwords.SignificantLength && |other| >= Passwords.SignificantLength
    requires password[..Passwords.SignificantLength] == other[..Passwords.SignificantLength]
    ensures Login(users, email, other).Ok?
    ensures Login(users, email, other) == Login(users, email, password)
  {
    assert Passwords.Significant(password) == Passwords.Significant(other);
  }

  /** A body field as the login route receives it: no validation pipe runs,
      so the password may be a string or any other JSON value (absent,
      null, a number). */
  datatype BodyValue = StringValue(text: string) | OtherValue

  /** The error `bcrypt.compare` raises for a password that is not a string;
      the framework reports it as an internal error. The library's message
      goes on with the types of both arguments (`Illegal arguments:
      undefined, string`); only its common prefix is modelled. */
  const IllegalArguments: string := "Illegal arguments"

  /** `login(email, password)` as written, for any password value: the
      lookup comes first, so an unknown email is refused as invalid
      credentials, while a known email with a non-string password reaches
      `bcrypt.compare`, which throws. */
  function LoginAsWritten(users: Collection<User>, email: string, password: BodyValue): (r: Result<LoginReply>)
    ensures password.StringValue? ==> r == Login(users, email, password.text)
    ensures password.OtherValue? ==> r.Err?
    ensures password.OtherValue? ==>
      (r.error == Unauthorized(InvalidCredentials) <==> FindByEmail(users, email).None?)
    ensures password.OtherValue? && FindByEmail(users, email).Some? ==> r.error == Failure(IllegalArguments)
  {
    match FindByEmail(users, email)
    case None => Err(Unauthorized(InvalidCredentials))
    case Some(_) =>
      match password
      case OtherValue => Err(Failure(IllegalArguments))
      case StringValue(p) => Login(users, email, p)
  }

  /** As written, a body without a string password tells a registered email
      from an unknown one: the replies differ. */
  lemma AsWrittenRevealsEmail(users: Collection<User>, j: nat, unknown: string)
    requires j < |users|
    requires !EmailTaken(users, unknown)
    ensures LoginAsWritten(users, users[j].body.email, OtherValue) == Err(Failure(IllegalArguments))
    ensures LoginAsWritten(users, unknown, OtherValue) == Err(Unauthorized(InvalidCredentials))
  {
  }

  /** The evident intent: a password that is not a string is refused with
      the one credentials error, whatever the email. */
  function LoginChecked(users: Collection<User>, email: string, password: BodyValue): (r: Result<LoginReply>)
    ensures r.Err? ==> r.error == Unauthorized(InvalidCredentials)
    ensures password.StringValue? ==> r == Login(users, email, password.text)
    ensures password.OtherValue? ==> r.Err?
  {
    match password
    case OtherValue => Err(Unauthorized(InvalidCredentials))
    case StringValue(p) => Login(users, email, p)
  }

  /** With the type check, an unknown email and any bad password for a
      known email, string or not, give the identical error. */
  lemma CheckedFailuresIndistinguishable(
    users: Collection<User>, unknown: string, anyPassword: BodyValue, j: nat, wrong: BodyValue)
    requires !EmailTaken(users, unknown)
    requires UniqueEmails(users)
    requires j < |users|
    requires wrong.StringValue? ==> !Passwords.Compare(wrong.text, users[j].body.password)
    ensures LoginChecked(users, unknown, anyPassword).Err?
    ensures LoginChecked(users, unknown, anyPassword) == LoginChecked(users, users[j].body.email, wrong)
  {
    FindByEmailUnique(users, j);
  }
}

=== FILE: avatar_upload.dfy ===
/** The avatar upload: stores the file under a fresh key in the avatar
    folder, then records the object's public URL on the user. The fresh
    identifier the key is built from and the storage service's verdict on
    the put are inputs.
 */
module AvatarUpload {
  import opened Results
  import opened Text
  import opened Documents
  import opened UserSchema
  import opened ObjectStorage

  const AvatarFolder: string := "users/avatars/"

  /** `originalname.split('.').pop()`. */
  function Extension(originalname: string): (ext: string)
    ensures '.' !in ext
    ensures EndsWith(originalname, ext)
    ensures '.' !in originalname ==> ext == originalname
    ensures '.' in originalname ==>
      |ext| < |originalname| && originalname[|originalname| - |ext| - 1] == '.'
  {
    AfterLast(originalname, '.')
  }

  /** `users/avatars/${uuid}.${extension}`. */
  function AvatarKey(uuid: string, originalname: string): string {
    AvatarFolder + uuid + "." + Extension(originalname)
  }

  /** The key sits in the avatar folder, starts with the identifier, and
      carries the upload's extension as its own: the extension of the key
      is the extension of the original file name. */
  lemma AvatarKeyShape(uuid: string, originalname: string)
    ensures StartsWith(AvatarKey(uuid, originalname), AvatarFolder + uuid + ".")
    ensures Extension(AvatarKey(uuid, originalname)) == Extension(originalname)
  {
    var key := AvatarKey(uuid, originalname);
    var head := AvatarFolder + uuid + ".";
    assert key == (AvatarFolder + uuid) + ['.'] + Extension(originalname);
    assert key[..|head|] == head;
    AfterLastOfJoined(AvatarFolder + uuid, Extension(originalname), '.');
  }

  /** The services' state after an avatar upload, and its reply. */
  datatype AvatarOutcome = AvatarOutcome(bucket: Bucket, users: Collection<User>, avatarUrl: Result<string>)

  /** The update `{ avatarUrl }`. */
  function SetAvatar(url: string): User -> User {
    (u: User) => u.(avatarUrl := url)
  }

  /** `uploadAvatar(userId, file)`: puts the file, then sets the object's URL
      as the user's avatar. Every failure, a refused put or a missing user
      alike, is caught and reported as one generic error. */
  function UploadAvatar(
    client: Client, bucket: Bucket, users: Collection<User>, userId: Id,
    file: UploadedFile, uuid: string, accepted: bool): (r: AvatarOutcome)
    ensures r.avatarUrl.Ok? <==> accepted && FindById(users, userId).Some?
    ensures r.avatarUrl.Err? ==> r.avatarUrl.error == Failure(AvatarUploadFailed) && r.users == users
    ensures !accepted ==> r.bucket == bucket
    ensures accepted ==> AvatarKey(uuid, file.originalname) in r.bucket
                         && r.bucket[AvatarKey(uuid, file.originalname)] == StoredObject(file.buffer, file.mimetype)
    ensures forall k :: k != AvatarKey(uuid, file.originalname) ==>
              (k in r.bucket <==> k in bucket) && (k in bucket ==> r.bucket[k] == bucket[k])
    ensures r.avatarUrl.Ok? ==>
      && r.avatarUrl.value == ObjectUrl(client, AvatarKey(uuid, file.originalname))
      && FindById(r.users, userId) == Some(FindById(users, userId).value.(avatarUrl := r.avatarUrl.value))
    ensures forall other :: other != userId ==> FindById(r.users, other) == FindById(users, other)
  {
    var key := AvatarKey(uuid, file.originalname);
    var (bucket', ok) := Put(bucket, key, file, accepted);
    if !ok then
      AvatarOutcome(bucket', users, Err(Failure(AvatarUploadFailed)))
    else
      var url := ObjectUrl(client, key);
      var (users', user) := UpdateById(users, userId, SetAvatar(url));
      match user
      case None => AvatarOutcome(bucket', users', Err(Failure(AvatarUploadFailed)))
      case Some(u) => AvatarOutcome(bucket', users', Ok(u.avatarUrl))
  }

  /** A missing user does not undo the put: the object stays in the bucket
      while the caller sees the same error as for a refused put. */
  lemma MissingUserKeepsObject(
    client: Client, bucket: Bucket, users: Collection<User>, userId: Id,
    file: UploadedFile, uuid: string)
    requires FindById(users, userId).None?
    ensures
      var ok := UploadAvatar(client, bucket, users, userId, file, uuid, true);
      var refused := UploadAvatar(client, bucket, users, userId, file, uuid, false);
      && AvatarKey(uuid, file.originalname) in ok.bucket
      && ok.avatarUrl == refused.avatarUrl
      && ok.users == users
  {
  }

  /** An avatar upload changes nothing but one avatar, so the user
      collection stays valid. */
  lemma UploadAvatarPreservesValidUsers(
    client: Client, bucket: Bucket, users: Collection<User>, userId: Id,
    file: UploadedFile, uuid: string, accepted: bool)
    requires ValidUsers(users)
    ensures ValidUsers(UploadAvatar(client, bucket, users, userId, file, uuid, accepted).users)
  {
    var r := UploadAvatar(client, bucket, users, userId, file, uuid, accepted);
    if r.avatarUrl.Ok? {
      var k := IndexOf(users, userId).value;
      var url := ObjectUrl(client, AvatarKey(uuid, file.originalname));
      assert r.users == users[k := Doc(userId, users[k].body.(avatarUrl := url))];
      assert forall j :: 0 <= j < |users| ==> r.users[j].body.email == users[j].body.email;
      assert forall j :: 0 <= j < |users| ==> r.users[j].body.name == users[j].body.name;
    }
  }
}

=== FILE: categories_service.dfy ===
/** The category service: a keyed store whose lookups, updates and removals
    fail with "not found" on an unknown id.

    The category schema is not part of this model, so a category is the set
    of named fields it was created or updated with.
 */
module CategoriesService {
  import opened Results
  import opened Documents

  /** A category's fields, by name. */
  type Category = map<string, string>

  /** `create(dto)`: stores a new category carrying the dto's fields. */
  function Create(categories: Collection<Category>, dto: Category): (r: (Collection<Category>, Doc<Category>))
    ensures r.1.body == dto
    ensures FindById(categories, r.1.id).None?
    ensures FindById(r.0, r.1.id) == Some(dto)
    ensures forall other :: other != r.1.id ==> FindById(r.0, other) == FindById(categories, other)
    ensures |r.0| == |categories| + 1
  {
    var (categories', id) := Insert(categories, dto);
    (categories', Doc(id, dto))
  }

  /** `findAll()`: every category document, ids included, in natural
      order. */
  function FindAll(categories: Collection<Category>): (r: Collection<Category>)
    ensures |r| == |categories|
    ensures forall j :: 0 <= j < |r| ==> r[j].id == categories[j].id && r[j].body == categories[j].body
  {
    categories
  }

  /** `findOne(id)`. */
  function FindOne(categories: Collection<Category>, id: Id): (r: Result<Category>)
    ensures r.Err? <==> forall j :: 0 <= j < |categories| ==> categories[j].id != id
    ensures r.Err? ==> r.error == NotFound(CategoryNotFound)
    ensures r.Ok? ==> Doc(id, r.value) in categories
  {
    match FindById(categories, id)
    case None => Err(NotFound(CategoryNotFound))
    case Some(c) => Ok(c)
  }

  /** The `$set` of an update: the dto's fields replace or add to the stored
      ones; the others stay. */
  function Merge(stored: Category, dto: Category): (m: Category)
    ensures m.Keys == stored.Keys + dto.Keys
    ensures forall f :: f in dto ==> m[f] == dto[f]
    ensures forall f :: f in stored && f !in dto ==> m[f] == stored[f]
  {
    stored + dto
  }

  function Patch(dto: Category): Category -> Category {
    (c: Category) => Merge(c, dto)
  }

  /** `update(id, dto)`: the merged category; no other category changes. */
  function Update(categories: Collection<Category>, id: Id, dto: Category): (r: (Collection<Category>, Result<Category>))
    ensures r.1.Err? <==> FindOne(categories, id).Err?
    ensures r.1.Err? ==> r.1.error == NotFound(CategoryNotFound) && r.0 == categories
    ensures r.1.Ok? ==> r.1.value == Merge(FindOne(categories, id).value, dto)
    ensures FindOne(r.0, id) == r.1
    ensures forall other :: other != id ==> FindOne(r.0, other) == FindOne(categories, other)
  {
    var (categories', updated) := UpdateById(categories, id, Patch(dto));
    match updated
    case None => (categories', Err(NotFound(CategoryNotFound)))
    case Some(c) => (categories', Ok(c))
  }

  /** `remove(id)`: deletes the category; no other category changes. */
  function Remove(categories: Collection<Category>, id: Id): (r: (Collection<Category>, Result<()>))
    ensures r.1.Err? <==> FindOne(categories, id).Err?
    ensures r.1.Err? ==> r.1.error == NotFound(CategoryNotFound) && r.0 == categories
    ensures forall other :: other != id ==> FindOne(r.0, other) == FindOne(categories, other)
    ensures UniqueIds(categories) ==> FindOne(r.0, id).Err? && UniqueIds(r.0)
  {
    var (categories', deleted) := DeleteById(categories, id);
    match deleted
    case None => (categories', Err(NotFound(CategoryNotFound)))
    case Some(_) => (categories', Ok(()))
  }

  /** The listing and the lookup agree: with unique ids, an id is listed
      exactly when `findOne` finds it, and `findOne` finds the listed
      category under each listed id. */
  lemma FindAllAgreesWithFindOne(categories: Collection<Category>, id: Id)
    requires UniqueIds(categories)
    ensures FindOne(categories, id).Ok? <==>
            exists j :: 0 <= j < |FindAll(categories)| && FindAll(categories)[j].id == id
    ensures forall j :: 0 <= j < |FindAll(categories)| ==>
              FindOne(categories, FindAll(categories)[j].id) == Ok(FindAll(categories)[j].body)
  {
    var listed := FindAll(categories);
    forall j | 0 <= j < |listed|
      ensures FindOne(categories, listed[j].id) == Ok(listed[j].body)
    {
      FindByIdUnique(categories, j);
    }
  }

  /** A removed category can no longer be found, updated or removed. */
  lemma RemovedIsGone(categories: Collection<Category>, id: Id, dto: Category)
    requires UniqueIds(categories)
    requires Remove(categories, id).1.Ok?
    ensures
      var after := Remove(categories, id).0;
      && FindOne(after, id) == Err(NotFound(CategoryNotFound))
      && Update(after, id, dto) == (after, Err(NotFound(CategoryNotFound)))
      && Remove(after, id) == (after, Err(NotFound(CategoryNotFound)))
  {
  }

  /** A category just created can be found under its new id, and an update
      with no fields returns it unchanged. */
  lemma CreateThenFind(categories: Collection<Category>, dto: Category)
    ensures
      var (after, d) := Create(categories, dto);
      FindOne(after, d.id) == Ok(dto) && Update(after, d.id, map[]).1 == Ok(dto)
  {
    var (after, d) := Create(categories, dto);
    assert Merge(dto, map[]) == dto;
  }
}

=== FILE: courses_controller.dfy ===
/** The file checks in front of the course thumbnail route: a size limit
    and a pattern on the upload's MIME type. The route handler runs only
    for a file that passes both.

    Both validators belong to the framework, whose behaviour depends on
    its version: whether a file of exactly the limit passes, and whether
    the type pattern is tested against the type the client declared or the
    type detected from the file's leading bytes, are parameters.
 */
module ThumbnailValidation {
  import opened Results
  import opened Text
  import opened ObjectStorage

  /** `5 * 1024 * 1024`: five mebibytes. */
  const MaxThumbnailBytes: nat := 5 * 1024 * 1024

  /** The alternatives of `/(jpg|jpeg|png|webp)$/`, in order. */
  const ImageTypes: seq<string> := ["jpg", "jpeg", "png", "webp"]

  const FileValidationFailed: string := "Validation failed"

  /** How the size validator compares against its limit. */
  datatype SizeRule = BelowLimit | UpToLimit

  predicate SizeOk(size: nat, rule: SizeRule) {
    match rule
    case BelowLimit => size < MaxThumbnailBytes
    case UpToLimit => size <= MaxThumbnailBytes
  }

  /** Which type string the type validator tests: the MIME type the
      client declared, or the type recognised from the file's content
      (`None` when the content matches no known type). */
  datatype TypeSource = DeclaredType | DetectedType(detected: Option<string>)

  /** The type string under test, if there is one. */
  function TestedType(file: UploadedFile, source: TypeSource): (t: Option<string>)
    ensures source == DeclaredType ==> t == Some(file.mimetype)
    ensures source.DetectedType? ==> t == source.detected
  {
    match source
    case DeclaredType => Some(file.mimetype)
    case DetectedType(detected) => detected
  }

  /** What the pattern means: some alternative matches from some position
      to the very end of the string. Nothing anchors it at the start and
      nothing folds case. */
  ghost predicate PatternMatches(t: string) {
    exists i :: 0 <= i <= |t| && t[i..] in ImageTypes
  }

  /** The pattern search as the regular-expression engine runs it: try each
      start position in turn and, at each, each alternative in order. */
  method SearchPattern(t: string) returns (found: bool)
    ensures found <==> PatternMatches(t)
  {
    var i := 0;
    while i <= |t|
      invariant 0 <= i <= |t| + 1
      invariant forall k :: 0 <= k < i ==> t[k..] !in ImageTypes
      decreases |t| + 1 - i
    {
      var j := 0;
      while j < |ImageTypes|
        invariant 0 <= j <= |ImageTypes|
        invariant forall m :: 0 <= m < j ==> t[i..] != ImageTypes[m]
      {
        var alt := ImageTypes[j];
        if StartsWith(t[i..], alt) && i + |alt| == |t| {
          assert t[i..] == alt;
          return true;
        }
        j := j + 1;
      }
      i := i + 1;
    }
    return false;
  }

  /** The type check as the model uses it: the type ends with one of the
      alternatives. */
  predicate TypeOk(mimetype: string) {
    || EndsWith(mimetype, ImageTypes[0]) || EndsWith(mimetype, ImageTypes[1])
    || EndsWith(mimetype, ImageTypes[2]) || EndsWith(mimetype, ImageTypes[3])
  }

  /** The suffix test and the pattern search agree on every string. */
  lemma TypeOkIffPatternMatches(t: string)
    ensures TypeOk(t) <==> PatternMatches(t)
  {
    if TypeOk(t) {
      TypeOkMatches(t);
    }
    if PatternMatches(t) {
      var i :| 0 <= i <= |t| && t[i..] in ImageTypes;
      MatchIsTypeOk(t, i);
    }
  }

  lemma TypeOkMatches(t: string)
    requires TypeOk(t)
    ensures PatternMatches(t)
  {
    if EndsWith(t, ImageTypes[0]) {
      SuffixMatches(t, 0);
    } else if EndsWith(t, ImageTypes[1]) {
      SuffixMatches(t, 1);
    } else if EndsWith(t, ImageTypes[2]) {
      SuffixMatches(t, 2);
    } else {
      SuffixMatches(t, 3);
    }
  }

  lemma SuffixMatches(t: string, m: nat)
    requires m < |ImageTypes| && EndsWith(t, ImageTypes[m])
    ensures PatternMatches(t)
  {
    var i := |t| - |ImageTypes[m]|;
    assert t[i..] == ImageTypes[m];
  }

  lemma MatchIsTypeOk(t: string, i: nat)
    requires i <= |t| && t[i..] in ImageTypes
    ensures TypeOk(t)
  {
    var alt := t[i..];
    assert t[|t| - |alt|..] == alt;
    assert alt == ImageTypes[0] || alt == ImageTypes[1] || alt == ImageTypes[2] || alt == ImageTypes[3];
  }

  /** The handler the checks guard: `uploadThumbnail(courseId, file)`. */
  datatype Invocation = UploadThumbnail(courseId: string, file: UploadedFile)

  /** The route: validates the file and, only if both checks pass, calls
      the handler with it. */
  function ThumbnailRoute(courseId: string, file: UploadedFile, rule: SizeRule, source: TypeSource): (r: Result<Invocation>)
    ensures r.Ok? <==> SizeOk(file.size, rule) && TestedType(file, source).Some?
                       && PatternMatches(TestedType(file, source).value)
    ensures r.Ok? ==> r.value == UploadThumbnail(courseId, file)
    ensures r.Err? ==> r.error == BadRequest(FileValidationFailed)
    ensures file.size > MaxThumbnailBytes ==> r.Err?
    ensures source == DeclaredType ==> (r.Ok? <==> SizeOk(file.size, rule) && PatternMatches(file.mimetype))
    ensures source == DetectedType(None) ==> r.Err?
    ensures file.size < MaxThumbnailBytes && TestedType(file, source).Some? && TypeOk(TestedType(file, source).value)
            ==> r.Ok?
  {
    match TestedType(file, source)
    case None => Err(BadRequest(FileValidationFailed))
    case Some(t) =>
      TypeOkIffPatternMatches(t);
      if SizeOk(file.size, rule) && TypeOk(t) then Ok(UploadThumbnail(courseId, file))
      else Err(BadRequest(FileValidationFailed))
  }

  /** The pattern is case-sensitive and unanchored: an upper-case type is
      refused, and any type string ending in an image suffix passes,
      whichever string the validator is configured to test. */
  lemma PatternExamples()
    ensures TypeOk("image/png") && TypeOk("image/jpeg") && TypeOk("image/webp")
    ensures !TypeOk("image/PNG") && !TypeOk("image/gif")
    ensures TypeOk("application/x-not-a-png")
  {
    assert "image/png"[6..] == "png";
    assert "image/jpeg"[6..] == "jpeg";
    assert "image/webp"[6..] == "webp";
    assert "application/x-not-a-png"[20..] == "png";
  }
}

=== FILE: documents.dfy ===
/** The object-document mapper's view of one collection, as the services use
    it: documents in natural (insertion) order, each under an id the store
    assigns, queried by `findOne(filter)` / `findById`, changed by
    `create`, `findByIdAndUpdate(id, change, { new: true })` and
    `findByIdAndDelete`.
 */
module Documents {
  import opened Results

  type Id = nat

  datatype Doc<T> = Doc(id: Id, body: T)

  /** A collection in natural order. */
  type Collection<T> = seq<Doc<T>>

  /** No id is used twice, as the store's primary key guarantees. */
  predicate UniqueIds<T>(c: Collection<T>) {
    forall i, j :: 0 <= i < j < |c| ==> c[i].id != c[j].id
  }

  /** The position of the first document, in natural order, that satisfies
      the filter `p`. */
  function FirstMatch<T>(c: Collection<T>, p: Doc<T> -> bool): (r: Option<nat>)
    ensures r.Some? ==> r.value < |c| && p(c[r.value])
    ensures r.Some? ==> forall j :: 0 <= j < r.value ==> !p(c[j])
    ensures r.None? ==> forall j :: 0 <= j < |c| ==> !p(c[j])
    decreases |c|
  {
    if |c| == 0 then None
    else if p(c[0]) then Some(0)
    else
      match FirstMatch(c[1..], p)
      case None => None
      case Some(k) => Some(k + 1)
  }

  /** The first match is pinned down by its contract. */
  lemma FirstMatchIs<T>(c: Collection<T>, p: Doc<T> -> bool, r: Option<nat>)
    requires r.Some? ==> r.value < |c| && p(c[r.value])
    requires r.Some? ==> forall j :: 0 <= j < r.value ==> !p(c[j])
    requires r.None? ==> forall j :: 0 <= j < |c| ==> !p(c[j])
    ensures FirstMatch(c, p) == r
  {
  }

  /** `findOne(filter)`: the first document satisfying the filter, or null. */
  function FindOne<T>(c: Collection<T>, p: Doc<T> -> bool): (r: Option<Doc<T>>)
    ensures r.Some? ==> p(r.value) && r.value in c
    ensures r.None? ==> forall j :: 0 <= j < |c| ==> !p(c[j])
  {
    match FirstMatch(c, p)
    case None => None
    case Some(k) => Some(c[k])
  }

  /** The filter `{ _id: id }`. */
  function HasId<T>(id: Id): Doc<T> -> bool {
    (d: Doc<T>) => d.id == id
  }

  function IndexOf<T>(c: Collection<T>, id: Id): Option<nat> {
    FirstMatch(c, HasId(id))
  }

  /** `findById(id)`: the body stored under `id`, or null. */
  function FindById<T>(c: Collection<T>, id: Id): (r: Option<T>)
    ensures r.Some? <==> exists j :: 0 <= j < |c| && c[j].id == id
    ensures r.Some? ==> Doc(id, r.value) in c
  {
    match IndexOf(c, id)
    case None => None
    case Some(k) => Some(c[k].body)
  }

  /** In a collection with unique ids, `findById` returns the one document
      stored under that id. */
  lemma FindByIdUnique<T>(c: Collection<T>, j: nat)
    requires UniqueIds(c)
    requires j < |c|
    ensures FindById(c, c[j].id) == Some(c[j].body)
  {
    var k := IndexOf(c, c[j].id).value;
    assert c[k].id == c[j].id;
  }

  /** The id the store hands out next: larger than every id in use. */
  function NextId<T>(c: Collection<T>): (n: Id)
    ensures forall j :: 0 <= j < |c| ==> c[j].id < n
    decreases |c|
  {
    if |c| == 0 then 0
    else
      var rest := NextId(c[1..]);
      assert forall j :: 1 <= j < |c| ==> c[j].id < rest by {
        forall j | 1 <= j < |c| ensures c[j].id < rest {
          assert c[j] == c[1..][j - 1];
        }
      }
      if c[0].id + 1 > rest then c[0].id + 1 else rest
  }

  /** `create(body)` / `new Model(body).save()`: appends a document under a
      fresh id and returns that id. */
  function Insert<T>(c: Collection<T>, body: T): (r: (Collection<T>, Id))
    ensures FindById(c, r.1) == None
    ensures FindById(r.0, r.1) == Some(body)
    ensures forall other :: other != r.1 ==> FindById(r.0, other) == FindById(c, other)
    ensures |r.0| == |c| + 1 && r.0[..|c|] == c && r.0[|c|] == Doc(r.1, body)
    ensures UniqueIds(c) ==> UniqueIds(r.0)
  {
    var id := NextId(c);
    InsertFacts(c, id, body);
    (c + [Doc(id, body)], id)
  }

  lemma InsertFacts<T>(c: Collection<T>, id: Id, body: T)
    requires forall j :: 0 <= j < |c| ==> c[j].id < id
    ensures FindById(c, id) == None
    ensures FindById(c + [Doc(id, body)], id) == Some(body)
    ensures forall other :: other != id ==> FindById(c + [Doc(id, body)], other) == FindById(c, other)
  {
    var c' := c + [Doc(id, body)];
    FirstMatchIs(c', HasId(id), Some(|c|));
    forall other | other != id
      ensures FindById(c', other) == FindById(c, other)
    {
      FirstMatchIs(c', HasId(other), IndexOf(c, other));
    }
  }

  /** `findByIdAndUpdate(id, change, { new: true })`: applies `change` to the
      document stored under `id` and returns the changed body, or returns
      null and changes nothing when no document has that id. */
  function UpdateById<T>(c: Collection<T>, id: Id, change: T -> T): (r: (Collection<T>, Option<T>))
    ensures r.1.None? <==> FindById(c, id).None?
    ensures r.1.None? ==> r.0 == c
    ensures r.1.Some? ==> r.1.value == change(FindById(c, id).value)
    ensures FindById(r.0, id) == r.1
    ensures forall other :: other != id ==> FindById(r.0, other) == FindById(c, other)
    ensures |r.0| == |c|
    ensures UniqueIds(c) ==> UniqueIds(r.0)
  {
    match IndexOf(c, id)
    case None => (c, None)
    case Some(k) =>
      var updated := change(c[k].body);
      UpdateFacts(c, id, k, updated);
      (c[k := Doc(id, updated)], Some(updated))
  }

  lemma UpdateFacts<T>(c: Collection<T>, id: Id, k: nat, updated: T)
    requires IndexOf(c, id) == Some(k)
    ensures FindById(c[k := Doc(id, updated)], id) == Some(updated)
    ensures forall other :: other != id ==> FindById(c[k := Doc(id, updated)], other) == FindById(c, other)
  {
    var c' := c[k := Doc(id, updated)];
    assert forall j :: 0 <= j < |c| ==> c'[j].id == c[j].id;
    FirstMatchIs(c', HasId(id), Some(k));
    forall other | other != id
      ensures FindById(c', other) == FindById(c, other)
    {
      FirstMatchIs(c', HasId(other), IndexOf(c, other));
    }
  }

  /** `findByIdAndDelete(id)`: removes the document stored under `id` and
      returns its body, or returns null and changes nothing. */
  function DeleteById<T>(c: Collection<T>, id: Id): (r: (Collection<T>, Option<T>))
    ensures r.1 == FindById(c, id)
    ensures r.1.None? ==> r.0 == c
    ensures r.1.Some? ==> |r.0| == |c| - 1
    ensures forall other :: other != id ==> FindById(r.0, other) == FindById(c, other)
    ensures UniqueIds(c) ==> UniqueIds(r.0) && FindById(r.0, id) == None
  {
    match IndexOf(c, id)
    case None => (c, None)
    case Some(k) =>
      DeleteFacts(c, id, k);
      (c[..k] + c[k + 1..], Some(c[k].body))
  }

  lemma DeleteFacts<T>(c: Collection<T>, id: Id, k: nat)
    requires IndexOf(c, id) == Some(k)
    ensures forall other :: other != id ==> FindById(c[..k] + c[k + 1..], other) == FindById(c, other)
    ensures UniqueIds(c) ==> UniqueIds(c[..k] + c[k + 1..]) && FindById(c[..k] + c[k + 1..], id) == None
  {
    var c' := c[..k] + c[k + 1..];
    assert forall j :: 0 <= j < k ==> c'[j] == c[j];
    assert forall j :: k <= j < |c'| ==> c'[j] == c[j + 1];
    forall other | other != id
      ensures FindById(c', other) == FindById(c, other)
    {
      match IndexOf(c, other)
      case None =>
        FirstMatchIs(c', HasId(other), None);
      case Some(m) =>
        assert m != k;
        FirstMatchIs(c', HasId(other), Some(if m < k then m else m - 1));
    }
    if UniqueIds(c) {
      forall j | 0 <= j < |c'| ensures c'[j].id != id {
        if j < k {
          assert c'[j] == c[j];
        } else {
          assert c'[j] == c[j + 1];
        }
      }
      FirstMatchIs(c', HasId(id), None);
    }
  }
}

=== FILE: object_storage.dfy ===
/** The object-storage client both upload services build from the
    environment: the configuration check their constructors run, the
    public URL of a stored object, and the bucket as a map from key to
    object. Whether the storage service accepts a put is decided by the
    network, so it is an input.
 */
module ObjectStorage {
  import opened Results
  import opened Text

  /** The four environment variables the constructors read; `None` when
      unset. */
  datatype Environment = Environment(
    region: Option<string>,
    accessKeyId: Option<string>,
    secretAccessKey: Option<string>,
    bucketName: Option<string>)

  /** JavaScript truthiness of an environment value: set and not empty. */
  predicate Truthy(v: Option<string>) {
    v.Some? && v.value != ""
  }

  /** A configured client: every value present. */
  datatype Client = Client(region: string, accessKeyId: string, secretAccessKey: string, bucketName: string)

  /** The constructor check: refuses to build a client when any of the four
      values is missing or empty, and otherwise uses them as given. */
  function Connect(env: Environment): (r: Result<Client>)
    ensures r.Ok? <==> Truthy(env.region) && Truthy(env.accessKeyId)
                       && Truthy(env.secretAccessKey) && Truthy(env.bucketName)
    ensures r.Err? ==> r.error == Failure(MissingAwsEnvironment)
    ensures r.Ok? ==> Some(r.value.region) == env.region && Some(r.value.accessKeyId) == env.accessKeyId
                      && Some(r.value.secretAccessKey) == env.secretAccessKey
                      && Some(r.value.bucketName) == env.bucketName
  {
    if !Truthy(env.region) || !Truthy(env.accessKeyId) || !Truthy(env.secretAccessKey) || !Truthy(env.bucketName) then
      Err(Failure(MissingAwsEnvironment))
    else
      Ok(Client(env.region.value, env.accessKeyId.value, env.secretAccessKey.value, env.bucketName.value))
  }

  /** The part of every public URL that comes before the key. */
  function UrlPrefix(client: Client): string {
    "https://" + client.bucketName + ".s3." + client.region + ".amazonaws.com/"
  }

  /** The public URL of the object stored under `key`. */
  function ObjectUrl(client: Client, key: string): (url: string)
    ensures StartsWith(url, "https://")
    ensures EndsWith(url, key)
  {
    var url := UrlPrefix(client) + key;
    assert url[..8] == "https://";
    assert url[|url| - |key|..] == key;
    url
  }

  /** Reads the key back out of a public URL of this client's bucket. */
  function KeyOfUrl(client: Client, url: string): Option<string> {
    var prefix := UrlPrefix(client);
    if StartsWith(url, prefix) then Some(url[|prefix|..]) else None
  }

  /** The URL names its key: reading the key back gives the key the URL was
      built from, so different keys give different URLs. */
  lemma {:induction false} UrlRoundTrip(client: Client, key: string)
    ensures KeyOfUrl(client, ObjectUrl(client, key)) == Some(key)
  {
    var prefix := UrlPrefix(client);
    var url := prefix + key;
    assert url[..|prefix|] == prefix;
    assert url[|prefix|..] == key;
  }

  type Byte = bv8

  /** A multipart upload as the file interceptor hands it over. */
  datatype UploadedFile = UploadedFile(originalname: string, mimetype: string, size: nat, buffer: seq<Byte>)

  datatype StoredObject = StoredObject(body: seq<Byte>, contentType: string)

  type Bucket = map<string, StoredObject>

  /** `s3.send(new PutObjectCommand({ Key, Body, ContentType }))`: when the
      storage service accepts the put, the bucket holds the file's bytes
      and type under `key`; when it refuses, the bucket is unchanged.
      Returns whether the put was accepted. */
  function Put(bucket: Bucket, key: string, file: UploadedFile, accepted: bool): (r: (Bucket, bool))
    ensures r.1 == accepted
    ensures accepted ==> key in r.0 && r.0[key] == StoredObject(file.buffer, file.mimetype)
    ensures accepted ==> forall k :: k != key ==> (k in r.0 <==> k in bucket)
    ensures accepted ==> forall k :: k in bucket && k != key ==> r.0[k] == bucket[k]
    ensures !accepted ==> r.0 == bucket
  {
    if accepted then (bucket[key := StoredObject(file.buffer, file.mimetype)], true)
    else (bucket, false)
  }
}

=== FILE: passwords.dfy ===
/** The salted password hash (`bcrypt.hash(password, 10)`) and its check
    (`bcrypt.compare(plain, hash)`).

    Salting makes hashing nondeterministic, so the salt is an input here.
    The digest type holds no string at all: a stored password is never the
    plaintext. What a digest records of its password is the bcrypt key
    stream: the password followed by one NUL terminator, read cyclically
    until `SignificantLength` characters have been taken. So only the first
    `SignificantLength` characters count, and passwords that contain NUL
    characters can share a stream. The check reads the salt and the cost
    from the digest it is given.
 */
module Passwords {

  /** The work factor the service passes to the hash. */
  const Cost: nat := 10

  /** How much key the bcrypt algorithm reads from a password. */
  const SignificantLength: nat := 72

  /** The terminator appended to the password before it is read. */
  const Nul: char := '\0'

  type Salt = nat

  datatype Digest = Digest(cost: nat, salt: Salt, image: seq<int>)

  /** The part of a password that can enter its digest. */
  function Significant(plain: string): (s: string)
    ensures |s| <= SignificantLength
    ensures |s| <= |plain| && s == plain[..|s|]
    ensures |plain| <= SignificantLength ==> s == plain
    ensures |plain| > SignificantLength ==> |s| == SignificantLength
  {
    if |plain| <= SignificantLength then plain else plain[..SignificantLength]
  }

  /** `key` repeated, cut at `SignificantLength` characters. */
  function Cycle(key: string): seq<int>
    requires |key| >= 1
  {
    seq(SignificantLength, i requires 0 <= i < SignificantLength => key[i % |key|] as int)
  }

  /** The key stream of a password: `plain` and its terminator, repeated,
      cut at `SignificantLength` characters. */
  function Image(plain: string): (img: seq<int>)
    ensures |img| == SignificantLength
    ensures forall i :: 0 <= i < |plain| && i < SignificantLength ==> img[i] == plain[i] as int
    ensures |plain| < SignificantLength ==> img[|plain|] == Nul as int
  {
    CycleStartsWithKey(plain + [Nul]);
    Cycle(plain + [Nul])
  }

  /** The first pass of a cycle reads the key itself. */
  lemma CycleStartsWithKey(key: string)
    requires |key| >= 1
    ensures forall i :: 0 <= i < |key| && i < SignificantLength ==> Cycle(key)[i] == key[i] as int
  {
    forall i | 0 <= i < |key| && i < SignificantLength ensures Cycle(key)[i] == key[i] as int {
      assert i % |key| == i;
    }
  }

  /** `bcrypt.hash(plain, Cost)` with the salt drawn by the library. */
  function Hash(plain: string, salt: Salt): (d: Digest)
    ensures d.cost == Cost && d.salt == salt
  {
    Digest(Cost, salt, Image(plain))
  }

  /** `bcrypt.compare(plain, d)`: re-hash `plain` with the salt and the cost
      stored in `d` and compare. The image does not depend on either, so a
      digest of any cost is checked the same way. */
  predicate Compare(plain: string, d: Digest) {
    Image(plain) == d.image
  }

  /** A digest accepts the password it was made from. */
  lemma CompareHash(plain: string, salt: Salt)
    ensures Compare(plain, Hash(plain, salt))
  {
  }

  /** Without NUL characters, the key stream determines the significant
      part of a password: the terminator marks where a short password ends. */
  lemma {:induction false} StreamDeterminesSignificant(a: string, b: string)
    requires Nul !in a && Nul !in b
    requires Image(a) == Image(b)
    ensures Significant(a) == Significant(b)
  {
    var sa, sb := Significant(a), Significant(b);
    forall i | 0 <= i < |sa| && i < |sb| ensures sa[i] == sb[i] {
      assert Image(a)[i] == a[i] as int && Image(b)[i] == b[i] as int;
    }
  }

  /** A digest rejects every NUL-free password whose significant part
      differs from that of the NUL-free password it was made from. */
  lemma {:induction false} CompareRejectsOthers(plain: string, other: string, salt: Salt)
    requires Nul !in plain && Nul !in other
    requires Significant(other) != Significant(plain)
    ensures !Compare(other, Hash(plain, salt))
  {
    if Compare(other, Hash(plain, salt)) {
      StreamDeterminesSignificant(other, plain);
    }
  }

  /** Two passwords that agree on their first `SignificantLength`
      characters are interchangeable: each passes the other's digest. */
  lemma {:induction false} CompareIgnoresTail(plain: string, other: string, salt: Salt)
    requires |plain| >= SignificantLength && |other| >= SignificantLength
    requires plain[..SignificantLength] == other[..SignificantLength]
    ensures Compare(other, Hash(plain, salt)) && Compare(plain, Hash(other, salt))
  {
    forall i | 0 <= i < SignificantLength ensures Image(plain)[i] == Image(other)[i] {
      assert plain[i] == plain[..SignificantLength][i];
      assert other[i] == other[..SignificantLength][i];
    }
  }

  /** The terminator makes NUL characters collide: "a" followed by NUL and
      "a" reads the same key stream as "a" alone, so it passes a digest of
      "a". */
  lemma NulCollision(salt: Salt)
    ensures "a" != "a\0a"
    ensures Compare("a\0a", Hash("a", salt))
  {
    var short, long := "a" + [Nul], "a\0a" + [Nul];
    forall i | 0 <= i < SignificantLength ensures long[i % 4] == short[i % 2] {
      assert (i % 4) % 2 == i % 2;
    }
  }
}

=== FILE: results.dfy ===
/** Failure-carrying results shared by every service of the model.

    The services signal failure by throwing; the model returns an `Err`
    instead, tagged with the kind of exception the service raises and the
    message it carries.
 */
module Results {

  /** A value that may be absent (the ODM's `null`, a missing field). */
  datatype Option<+T> = None | Some(value: T) {

    /** The value, or `default` when it is absent. */
    function GetOr(default: T): T {
      match this
      case Some(v) => v
      case None => default
    }
  }

  /** The exceptions the services raise, by kind. */
  datatype Error =
    | Conflict(message: string)       // 409, ConflictException
    | Unauthorized(message: string)   // 401, UnauthorizedException
    | NotFound(message: string)       // 404, NotFoundException
    | Validation(message: string)     // the ODM's ValidationError on save
    | BadRequest(message: string)     // 400, BadRequestException from a parsing pipe
    | Failure(message: string)        // a plain `Error`

  datatype Result<+T> = Ok(value: T) | Err(error: Error)

  /** The messages the services attach to their exceptions. */
  const EmailInUse: string := "Email já está em uso"
  const InvalidCredentials: string := "Credenciais inválidas"
  const Registered: string := "Usuário registrado com sucesso!"
  const CategoryNotFound: string := "Categoria não encontrada"
  const AvatarUploadFailed: string := "Falha ao fazer upload do avatar do usuário"
  const FileUploadFailed: string := "Failed to upload file to S3"
  const MissingAwsEnvironment: string := "Missing AWS environment variables"
  const NoFileUploaded: string := "No file uploaded"
  const UserValidationFailed: string := "User validation failed"
  const VideoValidationFailed: string := "Video validation failed"
}

=== FILE: text.dfy ===
/** String operations the services rely on: prefix and suffix tests and the
    JavaScript `split` on a single-character separator, with its inverse
    `Join` and the `split(sep).pop()` idiom (`AfterLast`).
 */
module Text {

  predicate StartsWith(s: string, prefix: string) {
    |prefix| <= |s| && s[..|prefix|] == prefix
  }

  predicate EndsWith(s: string, suffix: string) {
    |suffix| <= |s| && s[|s| - |suffix|..] == suffix
  }

  /** Glues `parts` back together with `sep` between neighbours
      (JavaScript's `parts.join(sep)`). */
  function Join(parts: seq<string>, sep: char): string
    requires |parts| >= 1
    decreases |parts|
  {
    if |parts| == 1 then parts[0] else parts[0] + [sep] + Join(parts[1..], sep)
  }

  /** JavaScript's `s.split(sep)` for a one-character separator: the maximal
      separator-free pieces of `s`, in order. There is always at least one
      piece, and the empty string splits into one empty piece. */
  function Split(s: string, sep: char): (parts: seq<string>)
    ensures |parts| >= 1
    ensures forall i :: 0 <= i < |parts| ==> sep !in parts[i]
    ensures Join(parts, sep) == s
    decreases |s|
  {
    if |s| == 0 then [""]
    else if s[0] == sep then [""] + Split(s[1..], sep)
    else
      var rest := Split(s[1..], sep);
      assert Join(rest, sep) == s[1..];
      JoinConsFirst(s[0], rest, sep);
      [[s[0]] + rest[0]] + rest[1..]
  }

  /** Prepending a character to the first piece prepends it to the join. */
  lemma {:induction false} JoinConsFirst(c: char, parts: seq<string>, sep: char)
    requires |parts| >= 1
    ensures Join([[c] + parts[0]] + parts[1..], sep) == [c] + Join(parts, sep)
  {
    var parts' := [[c] + parts[0]] + parts[1..];
    assert parts'[0] == [c] + parts[0];
    if |parts| > 1 {
      assert parts'[1..] == parts[1..];
    }
  }

  /** The last piece of a join is a suffix of it, preceded by the separator
      whenever there is more than one piece. */
  lemma {:induction false} JoinLast(parts: seq<string>, sep: char)
    requires |parts| >= 1
    ensures EndsWith(Join(parts, sep), parts[|parts| - 1])
    ensures |parts| == 1 ==> Join(parts, sep) == parts[0]
    ensures |parts| > 1 ==>
      var j := Join(parts, sep);
      |parts[|parts| - 1]| < |j| && j[|j| - |parts[|parts| - 1]| - 1] == sep
    decreases |parts|
  {
    if |parts| > 1 {
      var tail := parts[1..];
      JoinLast(tail, sep);
      var last := parts[|parts| - 1];
      assert tail[|tail| - 1] == last;
      var j := Join(parts, sep);
      var jt := Join(tail, sep);
      var off := |parts[0]| + 1;
      assert j == parts[0] + [sep] + jt;
      assert j[off..] == jt;
      assert |j| == off + |jt|;
      assert j[|j| - |last|..] == jt[|jt| - |last|..];
      assert j[off - 1] == sep;
      assert j[|j| - |last| - 1] == (if |tail| == 1 then sep else jt[|jt| - |last| - 1]);
    }
  }

  /** `s.split(sep).pop()`: the text after the last `sep` of `s`, or all of
      `s` when it holds no `sep`. */
  function AfterLast(s: string, sep: char): (tail: string)
    ensures sep !in tail
    ensures EndsWith(s, tail)
    ensures sep !in s ==> tail == s
    ensures sep in s ==> |tail| < |s| && s[|s| - |tail| - 1] == sep
  {
    var parts := Split(s, sep);
    JoinLast(parts, sep);
    parts[|parts| - 1]
  }

  /** A separator-free string splits into itself alone. */
  lemma {:induction false} SplitWithoutSeparator(s: string, sep: char)
    requires sep !in s
    ensures Split(s, sep) == [s]
    decreases |s|
  {
    if |s| > 0 {
      SplitWithoutSeparator(s[1..], sep);
      assert [s[0]] + s[1..] == s;
    }
  }

  /** Splitting at a first separator peels off the piece before it. */
  lemma {:induction false} SplitAtFirstSeparator(a: string, b: string, sep: char)
    requires sep !in a
    ensures Split(a + [sep] + b, sep) == [a] + Split(b, sep)
    decreases |a|
  {
    var s := a + [sep] + b;
    if |a| == 0 {
      assert s[0] == sep && s[1..] == b;
    } else {
      assert s[0] == a[0] && s[1..] == a[1..] + [sep] + b;
      SplitAtFirstSeparator(a[1..], b, sep);
      assert [a[0]] + a[1..] == a;
    }
  }

  /** `Split` is the only way to cut `s` into separator-free pieces that
      join back to `s`: split and join are inverse. */
  lemma {:induction false} SplitJoin(parts: seq<string>, sep: char)
    requires |parts| >= 1
    requires forall i :: 0 <= i < |parts| ==> sep !in parts[i]
    ensures Split(Join(parts, sep), sep) == parts
    decreases |parts|
  {
    if |parts| == 1 {
      SplitWithoutSeparator(parts[0], sep);
    } else {
      var tail := parts[1..];
      assert forall i :: 0 <= i < |tail| ==> sep !in tail[i] by {
        forall i | 0 <= i < |tail| ensures sep !in tail[i] {
          assert tail[i] == parts[i + 1];
        }
      }
      SplitJoin(tail, sep);
      assert sep !in parts[0];
      SplitAtFirstSeparator(parts[0], Join(tail, sep), sep);
      assert [parts[0]] + tail == parts;
    }
  }

  /** Joining one more piece appends the separator and that piece. */
  lemma {:induction false} JoinAppend(parts: seq<string>, piece: string, sep: char)
    requires |parts| >= 1
    ensures Join(parts + [piece], sep) == Join(parts, sep) + [sep] + piece
    decreases |parts|
  {
    var ps := parts + [piece];
    assert ps[0] == parts[0];
    if |parts| > 1 {
      assert ps[1..] == parts[1..] + [piece];
      JoinAppend(parts[1..], piece, sep);
    } else {
      assert ps[1..] == [piece];
    }
  }

  /** Whatever precedes the last separator, the text after it is what
      `AfterLast` returns. */
  lemma {:induction false} AfterLastOfJoined(a: string, b: string, sep: char)
    requires sep !in b
    ensures AfterLast(a + [sep] + b, sep) == b
  {
    var parts := Split(a, sep);
    JoinAppend(parts, b, sep);
    var ps := parts + [b];
    assert forall i :: 0 <= i < |ps| ==> sep !in ps[i] by {
      forall i | 0 <= i < |ps| ensures sep !in ps[i] {
        if i < |parts| {
          assert ps[i] == parts[i];
        }
      }
    }
    SplitJoin(ps, sep);
  }
}

=== FILE: tokens.dfy ===
/** The session token the login hands out. Signing is the token library's
    business; the model keeps what was signed and for how long. */
module Tokens {
  import opened Documents
  import opened UserSchema

  /** `signOptions: { expiresIn: '1h' }`, in seconds. */
  const SessionLifetimeSeconds: nat := 3600

  /** What a session token asserts about its bearer. */
  datatype Payload = Payload(name: string, email: string, role: Role, sub: Id)

  datatype AccessToken = Jwt(payload: Payload, expiresInSeconds: nat)

  /** `jwtService.sign(payload)` with the module's signing options. */
  function Sign(payload: Payload): (t: AccessToken)
    ensures t.payload == payload
    ensures t.expiresInSeconds == SessionLifetimeSeconds
  {
    Jwt(payload, SessionLifetimeSeconds)
  }
}

=== FILE: user_schema.dfy ===
/** The `User` document: its fields, which of them are required, the role
    enumeration with its default, the empty default avatar, and the unique
    email index.
 */
module UserSchema {
  import opened Results
  import opened Documents
  import Passwords

  datatype Role = Admin | Professor | Aluno

  /** The role a user gets when none is given. */
  const DefaultRole: Role := Aluno

  /** The avatar a user has until one is uploaded. */
  const DefaultAvatarUrl: string := ""

  /** The enumeration's spelling of each role. */
  function RoleName(role: Role): string {
    match role
    case Admin => "admin"
    case Professor => "professor"
    case Aluno => "aluno"
  }

  /** The enumeration check: which strings the role field accepts. */
  function ParseRole(s: string): (r: Option<Role>)
    ensures r.Some? <==> s == "admin" || s == "professor" || s == "aluno"
    ensures r.Some? ==> RoleName(r.value) == s
  {
    if s == "admin" then Some(Admin)
    else if s == "professor" then Some(Professor)
    else if s == "aluno" then Some(Aluno)
    else None
  }

  /** Every role is accepted under its own spelling, and the spellings are
      distinct. */
  lemma ParseRoleName(role: Role)
    ensures ParseRole(RoleName(role)) == Some(role)
  {
  }

  datatype User = User(
    name: string,
    email: string,
    password: Passwords.Digest,
    role: Role,
    avatarUrl: string)

  /** A user as the services hand it out: every stored field except the
      password, which this type has no place for. */
  datatype PublicUser = PublicUser(id: Id, name: string, email: string, role: Role, avatarUrl: string)

  /** `const { password, ...rest } = user.toObject()`. */
  function WithoutPassword(d: Doc<User>): (p: PublicUser)
    ensures p.id == d.id && p.name == d.body.name && p.email == d.body.email
    ensures p.role == d.body.role && p.avatarUrl == d.body.avatarUrl
  {
    PublicUser(d.id, d.body.name, d.body.email, d.body.role, d.body.avatarUrl)
  }

  /** A required string path accepts any string but the empty one. */
  predicate RequiredPresent(s: string) {
    s != ""
  }

  /** `new User({ name, email, password, role })` followed by the schema
      validation `save()` runs. An absent role takes the default, a present
      one must be in the enumeration, and the avatar starts empty. */
  function NewUser(name: string, email: string, password: Passwords.Digest, role: Option<string>): (r: Result<User>)
    ensures r.Ok? <==> name != "" && email != "" && (role.None? || ParseRole(role.value).Some?)
    ensures r.Ok? ==> r.value.name == name && r.value.email == email && r.value.password == password
    ensures r.Ok? ==> RoleName(r.value.role) == role.GetOr(RoleName(DefaultRole))
    ensures r.Ok? ==> r.value.avatarUrl == DefaultAvatarUrl
    ensures r.Err? ==> r.error == Validation(UserValidationFailed)
  {
    var parsed := match role
      case None => Some(DefaultRole)
      case Some(s) => ParseRole(s);
    if !RequiredPresent(name) || !RequiredPresent(email) || parsed.None? then
      Err(Validation(UserValidationFailed))
    else
      Ok(User(name, email, password, parsed.value, DefaultAvatarUrl))
  }

  /** A stored user has every required field. */
  predicate WellFormed(u: User) {
    RequiredPresent(u.name) && RequiredPresent(u.email)
  }

  /** The unique index on `email`. */
  predicate UniqueEmails(users: Collection<User>) {
    forall i, j :: 0 <= i < j < |users| ==> users[i].body.email != users[j].body.email
  }

  /** What holds of the user collection between requests. */
  predicate ValidUsers(users: Collection<User>) {
    && UniqueIds(users)
    && UniqueEmails(users)
    && forall i :: 0 <= i < |users| ==> WellFormed(users[i].body)
  }

  /** The filter `{ email }`. */
  function HasEmail(email: string): Doc<User> -> bool {
    (d: Doc<User>) => d.body.email == email
  }

  /** `findOne({ email })`. */
  function FindByEmail(users: Collection<User>, email: string): (r: Option<Doc<User>>)
    ensures r.Some? ==> r.value in users && r.value.body.email == email
    ensures r.None? <==> forall j :: 0 <= j < |users| ==> users[j].body.email != email
  {
    FindOne(users, HasEmail(email))
  }

  /** Under the unique index, `findOne({ email })` finds the one user that
      has that email. */
  lemma FindByEmailUnique(users: Collection<User>, j: nat)
    requires UniqueEmails(users)
    requires j < |users|
    ensures FindByEmail(users, users[j].body.email) == Some(users[j])
  {
    var k := FirstMatch(users, HasEmail(users[j].body.email)).value;
    assert users[k].body.email == users[j].body.email;
  }
}

=== FILE: video_routes.dfy ===
/** The route table of the video controller: which handler a request under
    `/videos` reaches. The framework tries the routes in the order the
    controller declares them and the first route whose verb and path match
    handles the request.
 */
module VideoRoutes {
  import opened Results

  datatype Verb = Get | Post | Put | Delete

  /** One path segment of a route: fixed text, or a parameter such as
      `:id`, which matches any non-empty segment. */
  datatype Segment = Literal(text: string) | Param

  datatype Handler =
    | CreateVideo | FindAllVideos | FindOneVideo | UpdateVideo | RemoveVideo
    | UploadVideo | FindPaginatedVideos

  /** A route: its verb, its path below `/videos`, and its handler. */
  datatype Route = Route(verb: Verb, path: seq<Segment>, handler: Handler)

  predicate SegmentMatches(pattern: Segment, segment: string) {
    match pattern
    case Literal(text) => segment == text
    case Param => segment != ""
  }

  /** A request with `verb` and the path segments `segments` below
      `/videos` matches `route`. */
  predicate Matches(route: Route, verb: Verb, segments: seq<string>) {
    && route.verb == verb
    && |route.path| == |segments|
    && forall i :: 0 <= i < |segments| ==> SegmentMatches(route.path[i], segments[i])
  }

  /** The position of the first route in `table` that matches the request. */
  function FirstRoute(table: seq<Route>, verb: Verb, segments: seq<string>): (r: Option<nat>)
    ensures r.Some? ==> r.value < |table| && Matches(table[r.value], verb, segments)
    ensures r.Some? ==> forall j :: 0 <= j < r.value ==> !Matches(table[j], verb, segments)
    ensures r.None? ==> forall j :: 0 <= j < |table| ==> !Matches(table[j], verb, segments)
    decreases |table|
  {
    if |table| == 0 then None
    else if Matches(table[0], verb, segments) then Some(0)
    else
      match FirstRoute(table[1..], verb, segments)
      case None => None
      case Some(k) => Some(k + 1)
  }

  /** The first matching route is pinned down by its contract. */
  lemma FirstRouteIs(table: seq<Route>, verb: Verb, segments: seq<string>, r: Option<nat>)
    requires r.Some? ==> r.value < |table| && Matches(table[r.value], verb, segments)
    requires r.Some? ==> forall j :: 0 <= j < r.value ==> !Matches(table[j], verb, segments)
    requires r.None? ==> forall j :: 0 <= j < |table| ==> !Matches(table[j], verb, segments)
    ensures FirstRoute(table, verb, segments) == r
  {
  }

  /** The handler a request reaches, or `None` for "not found". */
  function Dispatch(table: seq<Route>, verb: Verb, segments: seq<string>): (h: Option<Handler>)
    ensures h.Some? <==> exists j :: 0 <= j < |table| && Matches(table[j], verb, segments)
  {
    match FirstRoute(table, verb, segments)
    case None => None
    case Some(k) => Some(table[k].handler)
  }

  /** A route that does not match a request can be taken out of the table
      without changing where that request goes. */
  lemma DropNonMatching(table: seq<Route>, k: nat, verb: Verb, segments: seq<string>)
    requires k < |table| && !Matches(table[k], verb, segments)
    ensures Dispatch(table[..k] + table[k + 1..], verb, segments) == Dispatch(table, verb, segments)
  {
    var t := table[..k] + table[k + 1..];
    assert forall j :: 0 <= j < k ==> t[j] == table[j];
    assert forall j :: k <= j < |t| ==> t[j] == table[j + 1];
    match FirstRoute(table, verb, segments)
    case None =>
      FirstRouteIs(t, verb, segments, None);
    case Some(m) =>
      FirstRouteIs(t, verb, segments, Some(if m < k then m else m - 1));
  }

  /** The routes in the order the controller declares them. */
  const DeclaredRoutes: seq<Route> := [
    Route(Post, [], CreateVideo),
    Route(Get, [], FindAllVideos),
    Route(Get, [Param], FindOneVideo),
    Route(Put, [Param], UpdateVideo),
    Route(Delete, [Param], RemoveVideo),
    Route(Post, [Literal("upload")], UploadVideo),
    Route(Get, [Literal("paginated")], FindPaginatedVideos)
  ]

  /** As declared, `GET /videos/paginated` is taken by `GET /videos/:id`,
      which looks up a video with the id "paginated". */
  lemma PaginatedGoesToFindOne()
    ensures Dispatch(DeclaredRoutes, Get, ["paginated"]) == Some(FindOneVideo)
  {
    var segments := ["paginated"];
    assert Matches(DeclaredRoutes[2], Get, segments);
    assert !Matches(DeclaredRoutes[0], Get, segments) && !Matches(DeclaredRoutes[1], Get, segments);
  }

  /** As declared, no request whatever reaches the paginated listing. */
  lemma PaginatedUnreachable(verb: Verb, segments: seq<string>)
    ensures Dispatch(DeclaredRoutes, verb, segments) != Some(FindPaginatedVideos)
  {
    var routes := DeclaredRoutes;
    assert forall i :: 0 <= i < 6 ==> routes[i].handler != FindPaginatedVideos;
    if Matches(routes[6], verb, segments) {
      assert Matches(routes[2], verb, segments);
    }
  }

  /** The evident intent: the literal route declared before the parameter
      route it would otherwise collide with. */
  const IntendedRoutes: seq<Route> := [
    Route(Post, [], CreateVideo),
    Route(Get, [], FindAllVideos),
    Route(Get, [Literal("paginated")], FindPaginatedVideos),
    Route(Get, [Param], FindOneVideo),
    Route(Put, [Param], UpdateVideo),
    Route(Delete, [Param], RemoveVideo),
    Route(Post, [Literal("upload")], UploadVideo)
  ]

  /** With the literal route first, `GET /videos/paginated` reaches the
      paginated listing. */
  lemma IntendedReachesPaginated()
    ensures Dispatch(IntendedRoutes, Get, ["paginated"]) == Some(FindPaginatedVideos)
  {
    var segments := ["paginated"];
    assert Matches(IntendedRoutes[2], Get, segments);
    assert !Matches(IntendedRoutes[0], Get, segments) && !Matches(IntendedRoutes[1], Get, segments);
  }

  /** Every other request reaches the same handler under both orders. */
  lemma IntendedChangesNothingElse(verb: Verb, segments: seq<string>)
    requires verb != Get || segments != ["paginated"]
    ensures Dispatch(IntendedRoutes, verb, segments) == Dispatch(DeclaredRoutes, verb, segments)
  {
    var paginated := IntendedRoutes[2];
    assert paginated == DeclaredRoutes[6];
    assert !Matches(paginated, verb, segments) by {
      if verb == Get && |segments| == 1 {
        assert segments == [segments[0]];
        assert segments[0] != "paginated";
      }
    }
    SameRoutesOtherwise();
    SameOrderElsewhere(IntendedRoutes, 2, DeclaredRoutes, 6, verb, segments);
  }

  /** Two tables that differ only in where one route sits send every request
      that route does not match to the same handler. */
  lemma SameOrderElsewhere(a: seq<Route>, ka: nat, b: seq<Route>, kb: nat, verb: Verb, segments: seq<string>)
    requires ka < |a| && kb < |b|
    requires !Matches(a[ka], verb, segments) && !Matches(b[kb], verb, segments)
    requires a[..ka] + a[ka + 1..] == b[..kb] + b[kb + 1..]
    ensures Dispatch(a, verb, segments) == Dispatch(b, verb, segments)
  {
    DropNonMatching(a, ka, verb, segments);
    DropNonMatching(b, kb, verb, segments);
  }

  /** Apart from the paginated route, the two tables list the same routes
      in the same order. */
  lemma SameRoutesOtherwise()
    ensures IntendedRoutes[..2] + IntendedRoutes[3..] == DeclaredRoutes[..6] + DeclaredRoutes[7..]
  {
  }
}

=== FILE: video_upload.dfy ===
/** The video file upload: stores the file under a fresh key and returns
    the object's public URL. The fresh identifier and the storage service's
    verdict on the put are inputs.
 */
module VideoUpload {
  import opened Results
  import opened Text
  import opened ObjectStorage

  /** `${uuid}-${originalname}`. */
  function FileKey(uuid: string, originalname: string): string {
    uuid + "-" + originalname
  }

  /** The key starts with the identifier and a dash and ends with the file
      name, which can be read back from it. */
  lemma FileKeyShape(uuid: string, originalname: string)
    ensures StartsWith(FileKey(uuid, originalname), uuid + "-")
    ensures EndsWith(FileKey(uuid, originalname), originalname)
    ensures FileKey(uuid, originalname)[|uuid| + 1..] == originalname
  {
    var key := FileKey(uuid, originalname);
    assert key[..|uuid| + 1] == uuid + "-";
    assert key[|uuid| + 1..] == originalname;
  }

  /** The bucket after an upload, and the URL or the error returned. */
  datatype FileUpload = FileUpload(bucket: Bucket, url: Result<string>)

  /** `uploadFile(file)`: a URL comes back only once the put has been
      accepted; a refused put is reported by one fixed error. */
  function UploadFile(client: Client, bucket: Bucket, file: UploadedFile, uuid: string, accepted: bool): (r: FileUpload)
    ensures r.url.Ok? <==> accepted
    ensures r.url.Err? ==> r.url.error == Failure(FileUploadFailed) && r.bucket == bucket
    ensures r.url.Ok? ==>
      var key := FileKey(uuid, file.originalname);
      && key in r.bucket
      && r.bucket[key] == StoredObject(file.buffer, file.mimetype)
      && KeyOfUrl(client, r.url.value) == Some(key)
    ensures forall k :: k != FileKey(uuid, file.originalname) ==>
              (k in r.bucket <==> k in bucket) && (k in bucket ==> r.bucket[k] == bucket[k])
  {
    var key := FileKey(uuid, file.originalname);
    var (bucket', ok) := Put(bucket, key, file, accepted);
    if ok then
      UrlRoundTrip(client, key);
      FileUpload(bucket', Ok(ObjectUrl(client, key)))
    else
      FileUpload(bucket', Err(Failure(FileUploadFailed)))
  }

  /** The returned URL ends with the original file name. */
  lemma UploadedUrlEndsWithName(client: Client, bucket: Bucket, file: UploadedFile, uuid: string)
    ensures
      var r := UploadFile(client, bucket, file, uuid, true);
      r.url.Ok? && EndsWith(r.url.value, file.originalname)
  {
    var key := FileKey(uuid, file.originalname);
    var url := ObjectUrl(client, key);
    FileKeyShape(uuid, file.originalname);
    assert url[|url| - |file.originalname|..] == key[|key| - |file.originalname|..];
  }
}

=== FILE: videos_controller.dfy ===
/** The video routes: the `create` handler, which needs a file, uploads it
    and only then stores the video, and the paginated listing with its
    default page and size.
 */
module VideosController {
  import opened Results
  import opened Documents
  import opened ObjectStorage
  import opened VideoUpload
  import opened VideosService

  /** The bucket and the video collection after `create`, and its reply. */
  datatype CreateOutcome = CreateOutcome(bucket: Bucket, videos: Collection<Video>, reply: Result<Doc<Video>>)

  /** `{ ...videoData, fileUrl }`: the uploaded file's URL, written last,
      replaces any `fileUrl` the body carried. */
  function WithFileUrl(body: VideoFields, url: string): VideoFields {
    body.(fileUrl := Some(url))
  }

  /** `create(videoData, file)`: fails without a file; otherwise uploads the
      file and, only if the upload succeeded, stores the video with the
      upload's URL. */
  function Create(
    client: Client, bucket: Bucket, videos: Collection<Video>,
    body: VideoFields, file: Option<UploadedFile>, uuid: string, accepted: bool): (r: CreateOutcome)
    ensures file.None? ==> r == CreateOutcome(bucket, videos, Err(Failure(NoFileUploaded)))
    ensures file.Some? && !accepted ==> r == CreateOutcome(bucket, videos, Err(Failure(FileUploadFailed)))
    ensures r.reply.Err? ==> r.videos == videos
    ensures file.Some? && accepted ==>
      var key := FileKey(uuid, file.value.originalname);
      key in r.bucket && r.bucket[key] == StoredObject(file.value.buffer, file.value.mimetype)
    ensures file.Some? ==> forall k :: k != FileKey(uuid, file.value.originalname) ==>
              (k in r.bucket <==> k in bucket) && (k in bucket ==> r.bucket[k] == bucket[k])
    ensures r.reply.Ok? <==> file.Some? && accepted
                             && body.title.Some? && body.title.value != ""
                             && body.description.Some? && body.description.value != ""
    ensures r.reply.Ok? ==>
      var v := r.reply.value;
      && KeyOfUrl(client, v.body.fileUrl) == Some(FileKey(uuid, file.value.originalname))
      && FileKey(uuid, file.value.originalname) in r.bucket
      && v.body.title == body.title.value
      && v.body.description == body.description.value
      && FindById(videos, v.id).None?
      && FindById(r.videos, v.id) == Some(v.body)
      && |r.videos| == |videos| + 1 && r.videos[..|videos|] == videos
  {
    match file
    case None => CreateOutcome(bucket, videos, Err(Failure(NoFileUploaded)))
    case Some(f) =>
      var upload := UploadFile(client, bucket, f, uuid, accepted);
      match upload.url
      case Err(e) => CreateOutcome(upload.bucket, videos, Err(e))
      case Ok(url) =>
        UrlRoundTrip(client, FileKey(uuid, f.originalname));
        var (videos', created) := VideosService.Create(videos, WithFileUrl(body, url));
        CreateOutcome(upload.bucket, videos', created)
  }

  /** Whatever `fileUrl` the body carries, the stored video is the same: the
      upload's URL wins. */
  lemma UploadedUrlWins(
    client: Client, bucket: Bucket, videos: Collection<Video>,
    body: VideoFields, file: Option<UploadedFile>, uuid: string, accepted: bool, claimed: Option<string>)
    ensures Create(client, bucket, videos, body, file, uuid, accepted)
            == Create(client, bucket, videos, body.(fileUrl := claimed), file, uuid, accepted)
  {
  }

  /** A body without a title or description is refused by the schema only
      after the upload, so the file stays in the bucket while no video is
      stored. */
  lemma InvalidBodyLeavesUpload(
    client: Client, bucket: Bucket, videos: Collection<Video>,
    body: VideoFields, file: UploadedFile, uuid: string)
    requires body.title.None?
    ensures
      var r := Create(client, bucket, videos, body, Some(file), uuid, true);
      && r.reply == Err(Validation(VideoValidationFailed))
      && r.videos == videos
      && FileKey(uuid, file.originalname) in r.bucket
  {
  }

  /** `findPaginated(page = 1, limit = 10)`: the query's page and size, or
      the defaults when absent. Requests reach it through
      `VideoRoutes.IntendedRoutes`. */
  function FindPaginatedRoute(videos: Collection<Video>, page: Option<int>, limit: Option<int>): (r: seq<Doc<Video>>)
    requires page.GetOr(DefaultPage) >= 1 && limit.GetOr(DefaultLimit) >= 1
    ensures
      var start := PageStart(page.GetOr(DefaultPage), limit.GetOr(DefaultLimit));
      && |r| == (if start >= |videos| then 0 else Min(limit.GetOr(DefaultLimit), |videos| - start))
      && forall i :: 0 <= i < |r| ==> r[i] == videos[start + i]
  {
    FindPaginated(videos, page.GetOr(DefaultPage), limit.GetOr(DefaultLimit))
  }

  /** Without query parameters the listing is the first ten videos. */
  lemma DefaultListingIsFirstTen(videos: Collection<Video>)
    ensures FindPaginatedRoute(videos, None, None) == videos[..Min(|videos|, 10)]
  {
    var r := FindPaginatedRoute(videos, None, None);
    assert |r| == Min(|videos|, 10);
  }
}

=== FILE: videos_service.dfy ===
/** The video service: a keyed store of videos with partial updates, and
    the page window `find().skip((page - 1) * limit).limit(limit)`.
 */
module VideosService {
  import opened Results
  import opened Documents

  datatype Video = Video(title: string, description: string, fileUrl: string)

  /** `Partial<Video>`: the fields a request body carries. */
  datatype VideoFields = VideoFields(title: Option<string>, description: Option<string>, fileUrl: Option<string>)

  /** `new Video(data).save()`: every field of the schema is required, and a
      required string must not be empty. */
  function Create(videos: Collection<Video>, data: VideoFields): (r: (Collection<Video>, Result<Doc<Video>>))
    ensures r.1.Ok? <==> && data.title.Some? && data.title.value != ""
                         && data.description.Some? && data.description.value != ""
                         && data.fileUrl.Some? && data.fileUrl.value != ""
    ensures r.1.Err? ==> r.1.error == Validation(VideoValidationFailed) && r.0 == videos
    ensures r.1.Ok? ==>
      && r.1.value.body == Video(data.title.value, data.description.value, data.fileUrl.value)
      && FindById(videos, r.1.value.id).None?
      && FindById(r.0, r.1.value.id) == Some(r.1.value.body)
      && |r.0| == |videos| + 1 && r.0[..|videos|] == videos
  {
    if data.title.None? || data.title.value == "" || data.description.None? || data.description.value == ""
       || data.fileUrl.None? || data.fileUrl.value == ""
    then
      (videos, Err(Validation(VideoValidationFailed)))
    else
      var v := Video(data.title.value, data.description.value, data.fileUrl.value);
      var (videos', id) := Insert(videos, v);
      (videos', Ok(Doc(id, v)))
  }

  /** `findOne(id)`: the video, or null when there is none. Absence is not
      an error here. */
  function FindOne(videos: Collection<Video>, id: Id): (r: Option<Video>)
    ensures r.None? <==> forall j :: 0 <= j < |videos| ==> videos[j].id != id
    ensures r.Some? ==> Doc(id, r.value) in videos
  {
    FindById(videos, id)
  }

  /** The `$set` of a partial update: fields present in `patch` replace the
      stored ones, absent fields keep their value. Update validators do not
      run, so an empty string is stored as given. */
  function Merge(v: Video, patch: VideoFields): (m: Video)
    ensures m.title == patch.title.GetOr(v.title)
    ensures m.description == patch.description.GetOr(v.description)
    ensures m.fileUrl == patch.fileUrl.GetOr(v.fileUrl)
  {
    Video(patch.title.GetOr(v.title), patch.description.GetOr(v.description), patch.fileUrl.GetOr(v.fileUrl))
  }

  function Patch(patch: VideoFields): Video -> Video {
    (v: Video) => Merge(v, patch)
  }

  /** An empty patch changes nothing, and applying a patch twice is the same
      as applying it once. */
  lemma MergeIdentityAndIdempotent(v: Video, patch: VideoFields)
    ensures Merge(v, VideoFields(None, None, None)) == v
    ensures Merge(Merge(v, patch), patch) == Merge(v, patch)
  {
  }

  /** `update(id, data)`: the merged video, or null when there is none;
      no other video changes. */
  function Update(videos: Collection<Video>, id: Id, patch: VideoFields): (r: (Collection<Video>, Option<Video>))
    ensures r.1.None? <==> FindOne(videos, id).None?
    ensures r.1.None? ==> r.0 == videos
    ensures r.1.Some? ==> r.1.value == Merge(FindOne(videos, id).value, patch)
    ensures FindOne(r.0, id) == r.1
    ensures forall other :: other != id ==> FindOne(r.0, other) == FindOne(videos, other)
  {
    UpdateById(videos, id, Patch(patch))
  }

  /** `remove(id)`: deletes the video and returns it, or returns null; no
      other video changes. */
  function Remove(videos: Collection<Video>, id: Id): (r: (Collection<Video>, Option<Video>))
    ensures r.1 == FindOne(videos, id)
    ensures r.1.None? ==> r.0 == videos
    ensures forall other :: other != id ==> FindOne(r.0, other) == FindOne(videos, other)
    ensures UniqueIds(videos) ==> FindOne(r.0, id).None?
  {
    DeleteById(videos, id)
  }

  /** The defaults of the paginated listing. */
  const DefaultPage: int := 1
  const DefaultLimit: int := 10

  /** The cursor's `skip(n)`. */
  function Skip<T>(s: seq<T>, n: nat): seq<T> {
    if n >= |s| then [] else s[n..]
  }

  /** The cursor's `limit(n)` for a positive `n`. */
  function Limit<T>(s: seq<T>, n: nat): seq<T> {
    if n >= |s| then s else s[..n]
  }

  /** Where page `page` starts. */
  function PageStart(page: int, limit: int): nat
    requires page >= 1 && limit >= 1
  {
    (page - 1) * limit
  }

  function Min(a: int, b: int): int {
    if a <= b then a else b
  }

  /** `find().skip((page - 1) * limit).limit(limit)`: the window of at most
      `limit` documents that starts at `(page - 1) * limit`. */
  function FindPaginated<T>(all: seq<T>, page: int, limit: int): (r: seq<T>)
    requires page >= 1 && limit >= 1
    ensures |r| <= limit
    ensures PageStart(page, limit) >= |all| ==> r == []
    ensures PageStart(page, limit) < |all| ==> |r| == Min(limit, |all| - PageStart(page, limit))
    ensures forall i :: 0 <= i < |r| ==> r[i] == all[PageStart(page, limit) + i]
  {
    Limit(Skip(all, PageStart(page, limit)), limit)
  }

  /** Pages 1 to `k` laid end to end. */
  function FirstPages<T>(all: seq<T>, limit: int, k: nat): seq<T>
    requires limit >= 1
  {
    if k == 0 then [] else FirstPages(all, limit, k - 1) + FindPaginated(all, k, limit)
  }

  /** Reading pages 1, 2, ..., k in turn reads the collection from the start
      without gaps or repeats: the first `k` pages together are the first
      `k * limit` documents. */
  lemma {:induction false} FirstPagesArePrefix<T>(all: seq<T>, limit: int, k: nat)
    requires limit >= 1
    ensures FirstPages(all, limit, k) == all[..Min(|all|, k * limit)]
  {
    if k > 0 {
      FirstPagesArePrefix(all, limit, k - 1);
      NextPageExtends(all, limit, k);
    }
  }

  /** Page `k` is exactly what lies between the first `k - 1` pages and the
      first `k`. */
  lemma NextPageExtends<T>(all: seq<T>, limit: int, k: nat)
    requires limit >= 1 && k >= 1
    ensures all[..Min(|all|, k * limit)] == all[..Min(|all|, (k - 1) * limit)] + FindPaginated(all, k, limit)
  {
    var before := Min(|all|, (k - 1) * limit);
    var after := Min(|all|, k * limit);
    var page := FindPaginated(all, k, limit);
    assert PageStart(k, limit) == (k - 1) * limit;
    assert k * limit == (k - 1) * limit + limit;
    assert |page| == after - before;
    var joined := all[..before] + page;
    assert |joined| == after;
    forall i | 0 <= i < after
      ensures all[..after][i] == joined[i]
    {
      if i >= before {
        assert joined[i] == page[i - before];
      }
    }
  }

  /** Distinct pages do not overlap: everything on an earlier page comes
      from a position before anything on a later page. */
  lemma PagesDoNotOverlap<T>(all: seq<T>, limit: int, p: int, q: int)
    requires limit >= 1
    requires 1 <= p < q
    ensures PageStart(p, limit) + |FindPaginated(all, p, limit)| <= PageStart(q, limit)
  {
    assert (q - 1) * limit >= p * limit by {
      assert q - 1 >= p;
      MultiplyMonotone(p, q - 1, limit);
    }
    assert p * limit == (p - 1) * limit + limit;
  }

  lemma MultiplyMonotone(a: int, b: int, c: int)
    requires 0 <= a <= b && c >= 0
    ensures a * c <= b * c
  {
  }

  /** Every document is on exactly one page: the one its position divided
      by the limit picks out, at the remainder. */
  lemma DocumentOnItsPage<T>(all: seq<T>, limit: int, n: nat)
    requires limit >= 1
    requires n < |all|
    ensures
      var page := n / limit + 1;
      var r := FindPaginated(all, page, limit);
      n % limit < |r| && r[n % limit] == all[n]
  {
    var page := n / limit + 1;
    assert PageStart(page, limit) == (n / limit) * limit;
    assert (n / limit) * limit + n % limit == n;
  }
}
